=== FILE: README.md ===
# Chat-to-speech relay: a Dafny model

This project models the decision logic of `chat_overlay.py`, a relay from a YouTube live chat
to a text-to-speech service with a browser overlay. It covers four parts:

- **The message handler** `handle_new_pytchat_message` strips a chat message. It checks,
  ignoring case, whether the message starts with the activation phrase `"faust says "`,
  trailing space included. On a match it cuts the phrase off, strips the rest and drops an
  empty payload. Otherwise it emits `"<author>: <payload>"` to the overlay and then puts the
  payload on the TTS queue. These are modules `Text`, `Activation` and `WorkQueue`. The queue is the sequence of jobs in `put` order, and the worker's k-th `get` returns its k-th element.
- **The TTS worker** `tts_worker` is the single consumer of the queue. It speaks each job,
  with a `tts_start` notice before the call and a `tts_stop` notice after it. It absorbs
  speech failures, stops on the `None` sentinel or on the shutdown flag, and then runs the
  service's `cleanup`. This is module `TtsWorker`.
- **The chat listener** `pytchat_listener_loop` polls the chat and hands every item to the
  handler. It leaves on shutdown, on a dead chat, on the retry error or on a cleared instance.
  Its `finally` block terminates the chat. This is module `Listener`. The manual console mode
  `manual_message_input` is module `ManualInput`.
- **The shutdown sequence** of the main thread, plus the parts put together (module
  `Supervisor`).

Everything outside the program becomes a scripted input:

- A chat poll is one `ChatPoll` per loop round.
- The console is a sequence of lines; running out of lines is end of input.
- Whether each `speak` call raises is a sequence of booleans.
- The shutdown event and the `pytchat_instance` global are each a `Flag`, as seen by one
  reader. A flag is set once and never cleared. So for one reader, a flag is fully described
  by the first read that finds it set. Each loop's reads are numbered in program order.

Each run function returns a trace of what can be observed, with no global state:

- overlay notices and queued jobs (`Effect`);
- speech calls and `task_done` (`Event`);
- the items handed to the callback and whether `terminate` was called (`ListenRun`).

The Python `str.strip` is modelled with the full `str.isspace` character set. `str.lower` is
modelled for ASCII letters only (see "Left out").

Some facts about the code that the model keeps and that are easy to miss:

- The worker ends when its round-head read at line 64 finds the shutdown flag set, not only
  when `get` returns `None` (line 71). `cleanup` (line 123) runs after either exit, as long as no `emit` raises (see "Left out").
- Nothing reacts to the listener leaving on its own (a dead chat, the retry error at lines
  195-197). The main thread's shutdown (lines 313-348) starts only when `socketio.run` at
  line 308 returns.
- `terminate` can be called twice on the same chat: by the listener's `finally` block
  (lines 216-219) and by the main thread (lines 323-326).
- The listener leaves when it finds `pytchat_instance` cleared (line 204). Once the listener
  runs, nothing in the program clears it, because the assignment at line 328 is commented
  out. The model keeps that path as a flag input that a real run never sets.

## Model

| member | source | states |
|---|---|---|
| Text.TrimDecomposes | chat_overlay.py:146 | `strip` removes only whitespace, and only at the two ends. What it leaves is empty or starts and ends with a non-space. |
| Text.TrimUnique | chat_overlay.py:154 | Any split of a string into whitespace, tight text and whitespace is the one `strip` finds. So the stripped result is determined by the string. |
| Text.TrimIdempotent | chat_overlay.py:154 | Stripping an already stripped text changes nothing. |
| Text.TrimEmptyIff | chat_overlay.py:156-158 | A string strips to the empty string exactly when it is all whitespace. |
| Text.ToLowerPrefix | chat_overlay.py:152-154 | Lower-casing keeps positions: the first n characters of the lowered text are the lowered first n characters. So a prefix test on the lowered text is about the same characters that the slice cuts from the original text. |
| Activation.Filter | chat_overlay.py:143-163 | A relay only comes from a message whose stripped, lowered text starts with the phrase. The spoken text is non-empty and tight. The display text is the author's name, `": "`, then the spoken text. |
| Activation.FilterIff | chat_overlay.py:146-158 | A message matches if and only if the phrase (any ASCII case) follows its leading whitespace and something other than whitespace comes after the phrase. The spoken text is that remainder stripped, in its original case. |
| Activation.FilterAfterPhrase | chat_overlay.py:146-163 | With any leading whitespace and the phrase in any case, the item is dropped when only whitespace follows. Otherwise the remainder is spoken as written, and the display uses the author's name or `Someone`. |
| Activation.BarePhraseNeverMatches | chat_overlay.py:33 | `"faust says"` without its trailing space, alone between whitespace, never matches. |
| Activation.Handle | chat_overlay.py:160-173 | A message has no effect, or exactly one overlay notice followed by exactly one queued job. It has no effect exactly when the filter drops it. The notice reads author, `": "`, job text, and the job text is non-empty. |
| Activation.IngestQueues | chat_overlay.py:171-172 | Handling a stream of items appends exactly one job per matching item, in order, behind the jobs already queued. Those earlier jobs stay unchanged. |
| Activation.IngestPaired | chat_overlay.py:164-172 | Across any stream of items, every notice is immediately followed by the job it announces, and every job immediately follows its notice. |
| TtsWorker.WorkFifo | chat_overlay.py:64-85 | The texts passed to `speak` are exactly the texts of the popped jobs, in queue order, each once. |
| TtsWorker.WorkSentinel | chat_overlay.py:64-73 | A sentinel in the queue ends the loop with `cleanup`, and no job behind it is popped. With no shutdown the worker pops up to and including the first sentinel. |
| TtsWorker.WorkBlocked | chat_overlay.py:64-68 | A worker left waiting in `get` has popped every job, met no sentinel and never seen the flag. With no shutdown and no sentinel, it always ends up waiting. |
| TtsWorker.WorkCleanupOnce | chat_overlay.py:121-123 | `cleanup` runs exactly once when the loop has ended, and never while the worker is still waiting. |
| TtsWorker.WorkCleanupLast | chat_overlay.py:121-123 | `cleanup` is the last event of a worker whose loop ended. |
| TtsWorker.WorkTaskDone | chat_overlay.py:108-118 | `task_done` is recorded exactly once per job spoken. The sentinel never gets one. |
| TtsWorker.WorkStops | chat_overlay.py:96-106 | Every `speak` call gets its `tts_stop` except possibly the last one. The last one misses it only when the `finally` read of its round (line 100) saw the shutdown flag. |
| TtsWorker.WorkStopsAll | chat_overlay.py:96-106 | With no shutdown, every `speak` call gets its `tts_stop`, even when the call raised. |
| TtsWorker.WorkBracketed | chat_overlay.py:76-106 | Every trace has the form: rounds of `tts_start`, `speak`, `tts_stop`, `task_done`. A round without `tts_stop` can only be the last, directly before `cleanup`. The trace ends with `cleanup` or with the worker waiting. |
| TtsWorker.WorkAbsorbsFailures | chat_overlay.py:91-94 | Whether the `speak` calls raise changes neither the jobs popped, nor how the worker ends, nor any event other than the call outcome. |
| TtsWorker.WorkSeesShutdown | chat_overlay.py:64-68 | The loop ends only on the sentinel or on a head read that sees the flag. Once a round-head read sees the shutdown flag, no further job is popped or spoken. A worker whose loop ended either popped the sentinel last, or its next head read saw the flag. If the flag is visible by the round-head read that follows the last job, the worker always reaches `cleanup` instead of waiting in `get`. |
| Listener.DeliverStops | chat_overlay.py:187-191 | The `for` loop hands the callback a prefix of the batch, each item after a clear shutdown read. It breaks exactly when it stops short, on a read that sees the flag. |
| Listener.ListenDelivers | chat_overlay.py:184-193 | The callback receives a prefix of all batch items, in order. With no shutdown it receives every item of every batch polled. |
| Listener.ListenExitReason | chat_overlay.py:184-206 | The loop goes round again only after a batch or a non-critical error. The loop ends with `NotAlive` exactly when the last poll was a dead chat, and with `RetriesExhausted` exactly when it was the retry error. It ends with `InstanceGone` only after a batch or an error whose following instance read (line 204) found the instance cleared. It ends with `ShutdownSeen` only once one of its own shutdown reads (lines 184, 189, 192) has seen the flag. It is still running only when the script is used up. |
| Listener.ListenRunsOn | chat_overlay.py:198-208 | Non-critical errors never end the loop. With no flag set and only batches and errors, it runs through the whole script and delivers every item. |
| Listener.ListenFinally | chat_overlay.py:213-221 | `terminate` is called only after the loop has left, and never after it left because the instance was cleared. With the instance never cleared, it is called exactly when the loop has left. |
| Listener.ListenShutdownBound | chat_overlay.py:184-193 | If reads from n on see the flag, at most n − s items reach the callback and at most n − s rounds poll (s is the index of the first shutdown read). If the first head read sees it, nothing is polled or delivered. If the flag is visible by read s plus the number of rounds left, the loop always leaves. |
| ManualInput.FirstQuitIsFirst | chat_overlay.py:233 | The first quit line is a quit word, and no line before it is. |
| ManualInput.ManualFeedsUntilQuit | chat_overlay.py:229-240 | With no shutdown, the handler gets every line before the first `quit`/`exit`, as `Tester` items, in order. The session ends on that word, or at end of input. |
| ManualInput.ManualSessionUntilQuit | chat_overlay.py:224-242 | `manual_message_input` with no shutdown hands the handler exactly the lines before the first `quit`/`exit`, as `Tester` items, and ends on that word or at end of input. |
| ManualInput.ManualFeedsPrefix | chat_overlay.py:229-239 | Whatever the flag does, the handler gets an initial run of the lines before the first quit word. Every line it gets was read in a round whose two flag reads, at the head (line 229) and after `input()` (line 232), found the flag clear. So no line reaches the handler once the flag is seen. A session that ends on the flag ends on one of its own reads that saw it. |
| ManualInput.QuitWords | chat_overlay.py:233 | `quit` and `exit` match in any case. With a space before or after, or more words, the line is an ordinary message. |
| Supervisor.ShutdownActions | chat_overlay.py:317-348 | The flag is set first. Then come terminate (exactly when a chat instance exists), join input (when it is alive), one sentinel, and join worker (when it is alive), in this order and each at most once. |
| Supervisor.PoisonOnce | chat_overlay.py:341-348 | The sentinel is pushed exactly once, never first, and only the worker join comes after it. |
| Supervisor.DrainStopsAtSentinel | chat_overlay.py:345 | With the sentinel behind the pending jobs, the worker always ends with `cleanup`. It speaks an in-order prefix of the pending texts, and nothing pushed after the sentinel. |
| Supervisor.DrainSpeaksAllPending | chat_overlay.py:64-73 | A worker that never sees the flag speaks every pending text before stopping on the sentinel. |
| Supervisor.RelayEndToEnd | chat_overlay.py:143-221 | With no flag set and no critical poll outcome, the queue receives one job per matching chat item, in chat order. The worker speaks each of them once and stops on the sentinel. |
| Supervisor.AliceIsShown | chat_overlay.py:160-172 | Alice's "FAUST SAYS hello world" shows "Alice: hello world" and queues "hello world". |
| Supervisor.AliceMatches | chat_overlay.py:152-163 | That message matches with payload "hello world". |
| Supervisor.PhraseThenText | chat_overlay.py:152-163 | The phrase in any case, followed directly by tight text, relays that text under the author's name. |
| Supervisor.AliceIsSpoken | chat_overlay.py:76-123 | The queued "hello world" is spoken between `tts_start` and `tts_stop`, followed by `task_done` and `cleanup`. |
| Supervisor.FailureIsAbsorbed | chat_overlay.py:91-114 | A raising `speak` still gets its `tts_stop` and `task_done`, and the next job is spoken. |
| Supervisor.BobIsIgnored | chat_overlay.py:152 | Bob's "hi there" shows nothing and queues nothing. |

## Left out

- The Flask app, its route and the SocketIO connect handlers (lines 126-141) are not modelled. `emit` is an event appended to a trace. `socketio_global` is set at line 129 before any thread starts, so the "not set" branches are never taken and are not modelled.
- `pytchat.create`, network polling and `is_alive` are not modelled. The outcome of each round is a scripted `ChatPoll`. `tts_services.py` is not part of this model: `speak` is a scripted raise-or-not outcome. `cleanup` is taken to exist, because the base service class defines it.
- Threads, blocking, the sleeps at lines 94, 201 and 208 and the join timeouts at lines 335 and 348 are not modelled. The model takes the sequential view of each loop and its reads of the shared flags. Whether a joined thread finishes in time is an input to `ShutdownActions`.
- `.env` loading, logging and console `input()` are I/O and are left out.
- The startup paths (lines 245-310) are left out: mode selection, fatal exits, starting the threads and the server. They are configuration and process control.
- `str.lower` is modelled on ASCII letters only. Two non-ASCII characters lower to something with an ASCII letter in it: KELVIN SIGN lowers to `k`, and U+0130 lowers to `i` followed by a combining dot, which changes the length. Every other non-ASCII character lowers to non-ASCII characters. The activation phrase contains neither `k` nor `i`. So a message starts with the phrase under Python's `lower` exactly when it does under ASCII lowering. In that case its first eleven characters map one to one, so the slice at line 154 cuts the same characters. The quit words do contain `i`, but U+0130 lowers to two characters, so again the decision is the same. This argument is not proved in Dafny.
- Exceptions other than the modelled ones are left out: errors from `is_alive`, the listener's outer `except`, `terminate` raising, `task_done` raising `ValueError`, and unexpected errors in the manual loop. All of them are logged and then ignored, or end the loop with the same `finally`. The `queue.Empty` branch of the worker is unreachable, because `get` is called without a timeout.
- A chat item with no `author` attribute at all is not modelled: `item.author` at line 147 raises, and line 175 catches the error and does nothing. An item whose author has no `name` is modelled: it becomes `Someone`. A missing `message` is modelled too: `getattr` at line 146 gives the empty string, and such an item never matches.
- `emit` is taken never to raise. `socketio_global` is always set, and a failing SocketIO send is not modelled. In the source a raising `emit` changes three paths, none of them modelled: a raising `new_message` (line 168) is caught at line 175, so the job is never queued; a raising `tts_start` (line 78) jumps to line 91, so `speak` is skipped while `tts_stop` and `task_done` still run; and a raising `tts_stop` (line 103) is not caught inside the `finally`, so it escapes `tts_worker` and neither `task_done` (line 114) nor `cleanup` (line 123) runs. `TtsWorker.WorkCleanupOnce` and `TtsWorker.WorkCleanupLast` hold only on the paths where no `emit` raises.

=== FILE: activation.dfy ===
/**
 The activation filter `handle_new_pytchat_message`: a chat item whose stripped text
 starts, ignoring ASCII case, with the activation phrase is shown on the overlay as
 "author: content" and its content is queued for speech.
 */
module Activation {
  import opened Wrappers
  import opened Text
  import opened WorkQueue

  /** The activation phrase; the trailing space is part of it. */
  const Phrase: string := "faust says "

  /** Author name used when the item's author has no `name`. */
  const DefaultAuthor: string := "Someone"

  /** A chat item as the handler reads it: the author's `name` and the item's `message`,
      either of which may be missing. */
  datatype ChatItem = ChatItem(author: Option<string>, message: Option<string>)

  /** What a matching item produces: the text to speak and the text to display. */
  datatype Relay = Relay(speak: string, display: string)

  /** What the handler does, in order: a `new_message` notice to the overlay, a job on the queue. */
  datatype Effect = NewMessage(text: string) | Enqueued(job: Job)

  function AuthorName(item: ChatItem): string {
    item.author.GetOr(DefaultAuthor)
  }

  function MessageText(item: ChatItem): string {
    item.message.GetOr("")
  }

  /** Number of whitespace characters `strip` removes from the front of `s`. */
  function Lead(s: string): (n: nat)
    ensures n <= |s|
  {
    |s| - |TrimStart(s)|
  }

  /** The decision and the extraction of the handler, as a pure function. */
  function Filter(item: ChatItem): (r: Option<Relay>)
    ensures r.Some? ==> Phrase <= ToLower(Trim(MessageText(item)))
    ensures r.Some? ==> r.value.speak != [] && Tight(r.value.speak)
    ensures r.Some? ==> r.value.display == AuthorName(item) + ": " + r.value.speak
  {
    var text := Trim(MessageText(item));
    if Phrase <= ToLower(text) then
      var content := Trim(text[|Phrase|..]);
      if content == [] then None
      else
        TrimTight(text[|Phrase|..]);
        Some(Relay(content, AuthorName(item) + ": " + content))
    else None
  }

  /** A string that lowers to the phrase starts with a letter and ends with a space. */
  lemma PhraseShape(p: string)
    requires ToLower(p) == Phrase
    ensures |p| == |Phrase| && !IsSpace(p[0]) && !IsSpace(p[|Phrase| - 2]) && p[|Phrase| - 1] == ' '
  {
    assert ToLower(p)[0] == 'f';
    assert ToLower(p)[9] == 's';
    assert ToLower(p)[10] == ' ';
    LowerKeepsSpace(p[0]);
    LowerKeepsSpace(p[9]);
  }

  lemma FilterAfterPhraseBlank(author: Option<string>, lead: string, p: string, s: string)
    requires AllSpace(lead) && ToLower(p) == Phrase && AllSpace(s)
    ensures Filter(ChatItem(author, Some(lead + p + s))) == None
  {
    PhraseShape(p);
    var q := p[..|p| - 1];
    assert p == q + [p[|p| - 1]];
    TrimDropsLast(lead, q, p[|p| - 1], s);
  }

  lemma FilterAfterPhraseSpoken(author: Option<string>, lead: string, p: string, s: string)
    requires AllSpace(lead) && ToLower(p) == Phrase && !AllSpace(s)
    ensures Filter(ChatItem(author, Some(lead + p + s)))
         == Some(Relay(Trim(s), author.GetOr(DefaultAuthor) + ": " + Trim(s)))
  {
    var t := Trim(lead + p + s);
    PhraseShape(p);
    TrimKeepsFront(lead, p, s);
    ToLowerAppend(p, TrimEnd(s));
    assert t[|p|..] == TrimEnd(s);
    TrimAfterTrimEnd(s);
    TrimEmptyIff(s);
  }

  /** Leading whitespace, the phrase in any ASCII case, then `s`: the item matches exactly when
      `s` is not all whitespace, and then `s` stripped, in its own case, is what is spoken. */
  lemma FilterAfterPhrase(author: Option<string>, lead: string, p: string, s: string)
    requires AllSpace(lead) && ToLower(p) == Phrase
    ensures var r := Filter(ChatItem(author, Some(lead + p + s)));
      if AllSpace(s) then r == None
      else r == Some(Relay(Trim(s), author.GetOr(DefaultAuthor) + ": " + Trim(s)))
  {
    if AllSpace(s) {
      FilterAfterPhraseBlank(author, lead, p, s);
    } else {
      FilterAfterPhraseSpoken(author, lead, p, s);
    }
  }

  /** The phrase without its trailing space, alone with surrounding whitespace, never matches. */
  lemma BarePhraseNeverMatches(author: Option<string>, lead: string, q: string, tail: string)
    requires AllSpace(lead) && AllSpace(tail) && ToLower(q) == "faust says"
    ensures Filter(ChatItem(author, Some(lead + q + tail))) == None
  {
    assert ToLower(q)[0] == 'f' && ToLower(q)[9] == 's';
    LowerKeepsSpace(q[0]);
    LowerKeepsSpace(q[9]);
    TrimUnique(lead + q + tail, lead, q, tail);
  }

  /** The part of the message from the phrase position on, for `FilterIff`. */
  ghost predicate PhraseAt(msg: string, i: nat) {
    i + |Phrase| <= |msg| && ToLower(msg[i..i + |Phrase|]) == Phrase
  }

  lemma FilterIffPhrase(item: ChatItem)
    requires PhraseAt(MessageText(item), Lead(MessageText(item)))
    ensures var msg := MessageText(item); var i := Lead(msg); var rest := msg[i + |Phrase|..];
      Filter(item) == if AllSpace(rest) then None
        else Some(Relay(Trim(rest), AuthorName(item) + ": " + Trim(rest)))
  {
    var msg := MessageText(item);
    var i := Lead(msg);
    var a := TrimStartSplit(msg);
    var p := msg[i..i + |Phrase|];
    var s := msg[i + |Phrase|..];
    assert msg == a + p + s;
    assert msg != [];
    assert item == ChatItem(item.author, Some(msg));
    FilterAfterPhrase(item.author, a, p, s);
  }

  lemma PrefixThrough(msg: string, a: string, t: string, text: string, b: string, n: nat)
    requires msg == a + t && t == text + b && n <= |text|
    ensures text[..n] == msg[|a|..|a| + n]
  {
    assert msg == a + text + b;
  }

  lemma NoPhraseAfterTrim(msg: string)
    requires !PhraseAt(msg, Lead(msg))
    ensures !(Phrase <= ToLower(Trim(msg)))
  {
    var t := TrimStart(msg);
    var text := Trim(msg);
    var a := TrimStartSplit(msg);
    var b := TrimEndSplit(t);
    if |text| >= |Phrase| {
      PrefixThrough(msg, a, t, text, b, |Phrase|);
      ToLowerPrefix(text, |Phrase|);
    }
  }

  lemma FilterIffNoPhrase(item: ChatItem)
    requires !PhraseAt(MessageText(item), Lead(MessageText(item)))
    ensures Filter(item) == None
  {
    NoPhraseAfterTrim(MessageText(item));
  }

  /** Both directions: an item matches exactly when its message is whitespace, the phrase in
      any ASCII case, and something that is not all whitespace; what is spoken is that
      remainder of the original message, stripped, with its case preserved. */
  lemma FilterIff(item: ChatItem)
    ensures var msg := MessageText(item); var i := Lead(msg);
      Filter(item).Some? <==> (PhraseAt(msg, i) && !AllSpace(msg[i + |Phrase|..]))
    ensures var msg := MessageText(item); var i := Lead(msg);
      Filter(item).Some? ==> Filter(item).value.speak == Trim(msg[i + |Phrase|..])
  {
    if PhraseAt(MessageText(item), Lead(MessageText(item))) {
      FilterIffPhrase(item);
    } else {
      FilterIffNoPhrase(item);
    }
  }

  /** `handle_new_pytchat_message`: on a match, one display notice and then one job;
      otherwise nothing at all. */
  function Handle(item: ChatItem): (r: seq<Effect>)
    ensures r == [] || |r| == 2
    ensures r == [] <==> Filter(item).None?
    ensures |r| == 2 ==> r[0].NewMessage? && r[1].Enqueued? && r[1].job.Speak?
    ensures |r| == 2 ==> r[0].text == AuthorName(item) + ": " + r[1].job.text
    ensures |r| == 2 ==> r[1].job.text != [] && Tight(r[1].job.text)
  {
    match Filter(item)
    case None => []
    case Some(relay) => [NewMessage(relay.display), Enqueued(Speak(relay.speak))]
  }

  /** The handler applied to a stream of items, in order. */
  function Ingest(items: seq<ChatItem>): seq<Effect>
    decreases |items|
  {
    if items == [] then [] else Handle(items[0]) + Ingest(items[1..])
  }

  /** The jobs put on the queue, in the order they were put. */
  function Queued(effects: seq<Effect>): seq<Job>
    decreases |effects|
  {
    if effects == [] then []
    else (if effects[0].Enqueued? then [effects[0].job] else []) + Queued(effects[1..])
  }

  /** Reference: the jobs a stream of items should produce, one per matching item. */
  function Speeches(items: seq<ChatItem>): seq<Job>
    decreases |items|
  {
    if items == [] then []
    else SpeechOf(items[0]) + Speeches(items[1..])
  }

  lemma {:induction false} QueuedAppend(e1: seq<Effect>, e2: seq<Effect>)
    ensures Queued(e1 + e2) == Queued(e1) + Queued(e2)
    decreases |e1|
  {
    if e1 == [] {
      assert e1 + e2 == e2;
    } else {
      var h := if e1[0].Enqueued? then [e1[0].job] else [];
      assert (e1 + e2)[0] == e1[0];
      assert (e1 + e2)[1..] == e1[1..] + e2;
      assert Queued(e1 + e2) == h + Queued(e1[1..] + e2);
      QueuedAppend(e1[1..], e2);
      assert h + (Queued(e1[1..]) + Queued(e2)) == (h + Queued(e1[1..])) + Queued(e2);
    }
  }

  function SpeechOf(item: ChatItem): seq<Job> {
    match Filter(item)
    case Some(r) => [Speak(r.speak)]
    case None => []
  }

  lemma QueuedHandle(item: ChatItem)
    ensures Queued(Handle(item)) == SpeechOf(item)
  {
    var h := Handle(item);
    if h != [] {
      assert h[1..] == [h[1]];
      assert h[1..][1..] == [];
      assert Queued(h[1..][1..]) == [];
      assert Queued(h[1..]) == [h[1].job];
    }
  }

  lemma {:induction false} IngestQueuesAll(items: seq<ChatItem>)
    ensures Queued(Ingest(items)) == Speeches(items)
    decreases |items|
  {
    if items != [] {
      QueuedAppend(Handle(items[0]), Ingest(items[1..]));
      QueuedHandle(items[0]);
      IngestQueuesAll(items[1..]);
    }
  }

  /** FIFO producer side: ingesting items appends exactly one job per matching item, in item
      order, behind everything already queued, which stays as it was. */
  lemma IngestQueues(before: seq<Effect>, items: seq<ChatItem>)
    ensures Queued(before + Ingest(items)) == Queued(before) + Speeches(items)
  {
    QueuedAppend(before, Ingest(items));
    IngestQueuesAll(items);
  }

  predicate EndsWith(s: string, t: string) {
    |t| <= |s| && s[|s| - |t|..] == t
  }

  lemma SuffixOfAppend(a: string, b: string, c: string)
    ensures EndsWith(a + b + c, b + c)
  {
    assert a + b + c == a + (b + c);
  }

  /** The p-th pair: a notice immediately followed by the job it announces, the notice's text
      ending in ": " and the job's text. */
  ghost predicate PairAt(e: seq<Effect>, p: nat)
    requires 2 * p + 1 < |e|
  {
    && e[2 * p].NewMessage? && e[2 * p + 1].Enqueued? && e[2 * p + 1].job.Speak?
    && EndsWith(e[2 * p].text, ": " + e[2 * p + 1].job.text)
  }

  /** The effects come in announce-then-queue pairs and nothing else. */
  ghost predicate Paired(e: seq<Effect>) {
    |e| % 2 == 0 && forall p: nat :: 2 * p + 1 < |e| ==> PairAt(e, p)
  }

  lemma PairedRelay(r: Relay, author: string)
    requires r.display == author + ": " + r.speak
    ensures Paired([NewMessage(r.display), Enqueued(Speak(r.speak))])
  {
    var h := [NewMessage(r.display), Enqueued(Speak(r.speak))];
    SuffixOfAppend(author, ": ", r.speak);
    assert PairAt(h, 0);
  }

  lemma PairedHandle(item: ChatItem)
    ensures Paired(Handle(item))
  {
    match Filter(item)
    case None =>
    case Some(r) => PairedRelay(r, AuthorName(item));
  }

  lemma PairedAppend(e1: seq<Effect>, e2: seq<Effect>)
    requires Paired(e1) && Paired(e2)
    ensures Paired(e1 + e2)
  {
    var e := e1 + e2;
    var m := |e1| / 2;
    assert |e1| == 2 * m;
    forall p: nat | 2 * p + 1 < |e|
      ensures PairAt(e, p)
    {
      if p < m {
        assert PairAt(e1, p);
        assert e[2 * p] == e1[2 * p] && e[2 * p + 1] == e1[2 * p + 1];
      } else {
        assert PairAt(e2, p - m);
        assert e[2 * p] == e2[2 * (p - m)] && e[2 * p + 1] == e2[2 * (p - m) + 1];
      }
    }
  }

  /** Across a whole stream, notices and jobs come in announce-then-queue pairs. */
  lemma {:induction false} IngestPaired(items: seq<ChatItem>)
    ensures Paired(Ingest(items))
    decreases |items|
  {
    if items != [] {
      PairedHandle(items[0]);
      IngestPaired(items[1..]);
      PairedAppend(Handle(items[0]), Ingest(items[1..]));
    }
  }
}

=== FILE: listener.dfy ===
/**
 The chat listener `pytchat_listener_loop`, driven by a script of what each round of polling
 returns. The loop reads the shutdown flag at each round head, before each item of a batch
 and once after the batch; it reads the `pytchat_instance` global after each round that does
 not break out, and once more in its `finally` block, which terminates the chat when the
 instance is still there.

 Shutdown reads are numbered from `s` and instance reads from `g`, each on its own counter.
 */
module Listener {
  import opened Wrappers
  import opened Signals
  import opened Activation

  /** What one round finds after a clear shutdown read: the chat is no longer alive (`Dead`),
      or it is alive and `get` returns a batch, raises `RetryExceededError`, or raises any
      other error. */
  datatype ChatPoll = Items(items: seq<ChatItem>) | RetryExceeded | OtherError | Dead

  /** Why the loop left, or `StillRunning` when the script ran out with the loop still going. */
  datatype Exit = ShutdownSeen | NotAlive | RetriesExhausted | InstanceGone | StillRunning

  /** The items handed to the callback, the rounds polled, why the loop stopped, and whether
      the `finally` block called `terminate`. */
  datatype ListenRun = ListenRun(delivered: seq<ChatItem>, polls: nat, exit: Exit, terminated: bool)

  /** The result of the `for` loop over a batch: the items passed to the callback, the next
      free shutdown read index, and whether the loop broke out early. */
  datatype Batch = Batch(fed: seq<ChatItem>, after: nat, broke: bool)

  /** One round after its clear head read: go on to the next round head, whose shutdown read
      index is `next`, or stop with the reason. */
  datatype Step = Continue(fed: seq<ChatItem>, next: nat) | Stop(fed: seq<ChatItem>, exit: Exit)

  /** The `for item in items` loop: each item is preceded by a shutdown read (index `s`
      onward), and the first read that sees the flag breaks out. */
  function Deliver(items: seq<ChatItem>, shutdown: Flag, s: nat): (b: Batch)
    ensures |b.fed| <= |items|
    decreases |items|
  {
    if items == [] then Batch([], s, false)
    else if shutdown.SeenAt(s) then Batch([], s + 1, true)
    else
      var rest := Deliver(items[1..], shutdown, s + 1);
      Batch([items[0]] + rest.fed, rest.after, rest.broke)
  }

  /** The body of one round, after its head read `s` found the flag clear. */
  function Iterate(poll: ChatPoll, shutdown: Flag, gone: Flag, s: nat, g: nat): Step {
    match poll
      case Dead => Stop([], NotAlive)
      case RetryExceeded => Stop([], RetriesExhausted)
      case OtherError =>
        if gone.SeenAt(g) then Stop([], InstanceGone) else Continue([], s + 1)
      case Items(items) =>
        var b := Deliver(items, shutdown, s + 1);
        if shutdown.SeenAt(b.after) then Stop(b.fed, ShutdownSeen)
        else if gone.SeenAt(g) then Stop(b.fed, InstanceGone)
        else Continue(b.fed, b.after + 1)
  }

  /** The loop from round k on, with head read index `s` and instance read index `g`. */
  function Listen(script: seq<ChatPoll>, shutdown: Flag, gone: Flag, k: nat, s: nat, g: nat): (r: ListenRun)
    requires k <= |script|
    ensures k <= r.polls <= |script|
    decreases |script| - k
  {
    if shutdown.SeenAt(s) then ListenRun([], k, ShutdownSeen, !gone.SeenAt(g))
    else if k == |script| then ListenRun([], k, StillRunning, false)
    else match Iterate(script[k], shutdown, gone, s, g)
      case Stop(fed, exit) =>
        ListenRun(fed, k + 1, exit, !gone.SeenAt(if exit == InstanceGone then g + 1 else g))
      case Continue(fed, next) =>
        var rest := Listen(script, shutdown, gone, k + 1, next, g + 1);
        ListenRun(fed + rest.delivered, rest.polls, rest.exit, rest.terminated)
  }

  /** `pytchat_listener_loop` from its first round. */
  function ListenerLoop(script: seq<ChatPoll>, shutdown: Flag, gone: Flag): ListenRun {
    Listen(script, shutdown, gone, 0, 0, 0)
  }

  /** The items of the batches a script returns, in order. */
  function Batches(script: seq<ChatPoll>): seq<ChatItem>
    decreases |script|
  {
    if script == [] then []
    else (if script[0].Items? then script[0].items else []) + Batches(script[1..])
  }

  /** The poll outcomes after which the loop may go round again. */
  predicate KeepsGoing(p: ChatPoll) {
    p.Items? || p.OtherError?
  }

  // ---------------------------------------------------------------------------------------
  // The batch loop

  /** The callback gets a prefix of the batch, every item of it after a clear shutdown read,
      and the loop breaks exactly when it stops short, on a read that sees the flag. */
  lemma {:induction false} DeliverStops(items: seq<ChatItem>, shutdown: Flag, s: nat)
    ensures var b := Deliver(items, shutdown, s); b.fed == items[..|b.fed|]
    ensures var b := Deliver(items, shutdown, s); b.fed != [] ==> !shutdown.SeenAt(s + |b.fed| - 1)
    ensures var b := Deliver(items, shutdown, s); b.broke <==> |b.fed| < |items|
    ensures var b := Deliver(items, shutdown, s); b.broke ==> shutdown.SeenAt(s + |b.fed|)
    ensures var b := Deliver(items, shutdown, s); b.after == s + |b.fed| + (if b.broke then 1 else 0)
    decreases |items|
  {
    if items != [] && !shutdown.SeenAt(s) {
      DeliverStops(items[1..], shutdown, s + 1);
      var rest := Deliver(items[1..], shutdown, s + 1);
      assert Deliver(items, shutdown, s).fed == [items[0]] + rest.fed;
      assert items[..1 + |rest.fed|] == [items[0]] + items[1..][..|rest.fed|];
    }
  }

  /** With no shutdown the whole batch is delivered and the loop never breaks. */
  lemma DeliverAll(items: seq<ChatItem>, s: nat)
    ensures Deliver(items, Never, s) == Batch(items, s + |items|, false)
  {
    DeliverStops(items, Never, s);
  }

  // ---------------------------------------------------------------------------------------
  // One round

  lemma IterateContinues(poll: ChatPoll, shutdown: Flag, gone: Flag, s: nat, g: nat)
    requires !shutdown.SeenAt(s) && Iterate(poll, shutdown, gone, s, g).Continue?
    ensures var st := Iterate(poll, shutdown, gone, s, g);
      KeepsGoing(poll) && !gone.SeenAt(g) && s < st.next && !shutdown.SeenAt(st.next - 1)
      && st.fed == (if poll.Items? then poll.items else [])
      && st.next == s + 1 + |st.fed| + (if poll.Items? then 1 else 0)
  {
    if poll.Items? {
      var b := Deliver(poll.items, shutdown, s + 1);
      DeliverStops(poll.items, shutdown, s + 1);
      assert b.fed == poll.items;
    }
  }

  lemma IterateStops(poll: ChatPoll, shutdown: Flag, gone: Flag, s: nat, g: nat)
    requires !shutdown.SeenAt(s) && Iterate(poll, shutdown, gone, s, g).Stop?
    ensures var st := Iterate(poll, shutdown, gone, s, g);
      (st.exit == NotAlive <==> poll.Dead?) && (st.exit == RetriesExhausted <==> poll.RetryExceeded?)
      && (st.exit == InstanceGone ==> KeepsGoing(poll) && gone.SeenAt(g))
      && (st.exit == ShutdownSeen ==> shutdown.SeenAt(s + 2 + |st.fed|))
      && st.exit != StillRunning
      && st.fed <= (if poll.Items? then poll.items else [])
      && (shutdown == Never ==> st.fed == (if poll.Items? then poll.items else []))
      && (st.fed != [] ==> !shutdown.SeenAt(s + |st.fed|))
  {
    if poll.Items? {
      var b := Deliver(poll.items, shutdown, s + 1);
      DeliverStops(poll.items, shutdown, s + 1);
      assert Iterate(poll, shutdown, gone, s, g).fed == b.fed;
    }
  }

  lemma ListenHalts(script: seq<ChatPoll>, shutdown: Flag, gone: Flag, k: nat, s: nat, g: nat)
    requires k <= |script| && (shutdown.SeenAt(s) || k == |script|)
    ensures Listen(script, shutdown, gone, k, s, g)
         == if shutdown.SeenAt(s) then ListenRun([], k, ShutdownSeen, !gone.SeenAt(g))
            else ListenRun([], k, StillRunning, false)
  {
  }

  lemma ListenStops(script: seq<ChatPoll>, shutdown: Flag, gone: Flag, k: nat, s: nat, g: nat)
    requires k < |script| && !shutdown.SeenAt(s) && Iterate(script[k], shutdown, gone, s, g).Stop?
    ensures var st := Iterate(script[k], shutdown, gone, s, g);
      Listen(script, shutdown, gone, k, s, g)
        == ListenRun(st.fed, k + 1, st.exit, !gone.SeenAt(if st.exit == InstanceGone then g + 1 else g))
  {
  }

  lemma ListenContinues(script: seq<ChatPoll>, shutdown: Flag, gone: Flag, k: nat, s: nat, g: nat)
    requires k < |script| && !shutdown.SeenAt(s) && Iterate(script[k], shutdown, gone, s, g).Continue?
    ensures var st := Iterate(script[k], shutdown, gone, s, g);
      var rest := Listen(script, shutdown, gone, k + 1, st.next, g + 1);
      Listen(script, shutdown, gone, k, s, g)
        == ListenRun(st.fed + rest.delivered, rest.polls, rest.exit, rest.terminated)
  {
  }

  lemma BatchesStep(script: seq<ChatPoll>, k: nat, m: nat)
    requires k < m <= |script|
    ensures Batches(script[k..m])
         == (if script[k].Items? then script[k].items else []) + Batches(script[k + 1..m])
  {
    assert script[k..m][1..] == script[k + 1..m];
  }

  lemma BatchesOne(script: seq<ChatPoll>, k: nat)
    requires k < |script|
    ensures Batches(script[k..k + 1]) == if script[k].Items? then script[k].items else []
  {
    BatchesStep(script, k, k + 1);
  }

  // ---------------------------------------------------------------------------------------
  // Properties of the loop

  /** The callback sees the items of the polled batches in order, and stops short only
      because of the shutdown flag: with no shutdown it sees every item of every batch. */
  lemma {:induction false} ListenDelivers(script: seq<ChatPoll>, shutdown: Flag, gone: Flag, k: nat, s: nat, g: nat)
    requires k <= |script|
    ensures var r := Listen(script, shutdown, gone, k, s, g); r.delivered <= Batches(script[k..r.polls])
    ensures shutdown == Never ==>
      var r := Listen(script, shutdown, gone, k, s, g); r.delivered == Batches(script[k..r.polls])
    decreases |script| - k
  {
    if shutdown.SeenAt(s) || k == |script| {
      ListenHalts(script, shutdown, gone, k, s, g);
    } else if Iterate(script[k], shutdown, gone, s, g).Stop? {
      ListenStops(script, shutdown, gone, k, s, g);
      IterateStops(script[k], shutdown, gone, s, g);
      BatchesOne(script, k);
    } else {
      var st := Iterate(script[k], shutdown, gone, s, g);
      var rest := Listen(script, shutdown, gone, k + 1, st.next, g + 1);
      ListenContinues(script, shutdown, gone, k, s, g);
      IterateContinues(script[k], shutdown, gone, s, g);
      ListenDelivers(script, shutdown, gone, k + 1, st.next, g + 1);
      BatchesStep(script, k, rest.polls);
      PrefixAppend(st.fed, rest.delivered, Batches(script[k + 1..rest.polls]));
    }
  }

  lemma PrefixAppend(a: seq<ChatItem>, b: seq<ChatItem>, c: seq<ChatItem>)
    requires b <= c
    ensures a + b <= a + c
  {
    assert (a + c)[..|a + b|] == a + c[..|b|];
  }

  /** The loop goes round again only after a batch or a non-critical error, and it stops
      for the reason the last poll gives: `Dead` for a chat no longer alive, the retry error,
      or the instance found cleared after a batch or an error. Both ways round: a last poll
      that is `Dead` or the retry error always gives that exit reason. `ShutdownSeen` needs a
      shutdown read of this loop that found the flag set: by the time the last round's reads
      are done (a head read, one per delivered item and one after the batch, per round), the
      flag is seen. `InstanceGone` needs the instance read after the last round to see it
      cleared. */
  lemma {:induction false} ListenExitReason(script: seq<ChatPoll>, shutdown: Flag, gone: Flag, k: nat, s: nat, g: nat)
    requires k <= |script|
    ensures var r := Listen(script, shutdown, gone, k, s, g);
      forall i :: k <= i < r.polls && (i < r.polls - 1 || r.exit == StillRunning) ==> KeepsGoing(script[i])
    ensures var r := Listen(script, shutdown, gone, k, s, g);
      r.exit == StillRunning ==> r.polls == |script|
    ensures var r := Listen(script, shutdown, gone, k, s, g);
      r.exit == NotAlive ==> r.polls > k && script[r.polls - 1].Dead?
    ensures var r := Listen(script, shutdown, gone, k, s, g);
      r.exit == RetriesExhausted ==> r.polls > k && script[r.polls - 1].RetryExceeded?
    ensures var r := Listen(script, shutdown, gone, k, s, g);
      r.exit == InstanceGone ==> r.polls > k && KeepsGoing(script[r.polls - 1])
    ensures var r := Listen(script, shutdown, gone, k, s, g);
      r.polls > k && script[r.polls - 1].Dead? ==> r.exit == NotAlive
    ensures var r := Listen(script, shutdown, gone, k, s, g);
      r.polls > k && script[r.polls - 1].RetryExceeded? ==> r.exit == RetriesExhausted
    ensures var r := Listen(script, shutdown, gone, k, s, g);
      r.exit == ShutdownSeen ==> shutdown.SeenAt(s + 2 * (r.polls - k) + |r.delivered|)
    ensures var r := Listen(script, shutdown, gone, k, s, g);
      r.exit == InstanceGone ==> r.polls > k && gone.SeenAt(g + (r.polls - k) - 1)
    decreases |script| - k
  {
    if shutdown.SeenAt(s) || k == |script| {
      ListenHalts(script, shutdown, gone, k, s, g);
    } else if Iterate(script[k], shutdown, gone, s, g).Stop? {
      ListenStops(script, shutdown, gone, k, s, g);
      IterateStops(script[k], shutdown, gone, s, g);
    } else {
      var st := Iterate(script[k], shutdown, gone, s, g);
      ListenContinues(script, shutdown, gone, k, s, g);
      IterateContinues(script[k], shutdown, gone, s, g);
      ListenExitReason(script, shutdown, gone, k + 1, st.next, g + 1);
    }
  }

  /** Non-critical errors and batches never end the loop on their own: with neither flag ever
      seen and no `Dead` or retry error in the script, the loop runs through all of it and
      hands every item to the callback. */
  lemma {:induction false} ListenRunsOn(script: seq<ChatPoll>, k: nat, s: nat, g: nat)
    requires k <= |script|
    requires forall i :: k <= i < |script| ==> KeepsGoing(script[i])
    ensures var r := Listen(script, Never, Never, k, s, g);
      r.exit == StillRunning && r.polls == |script| && r.delivered == Batches(script[k..])
    decreases |script| - k
  {
    ListenDelivers(script, Never, Never, k, s, g);
    if k < |script| {
      var st := Iterate(script[k], Never, Never, s, g);
      if script[k].Items? {
        DeliverAll(script[k].items, s + 1);
      }
      ListenContinues(script, Never, Never, k, s, g);
      ListenRunsOn(script, k + 1, st.next, g + 1);
    }
  }

  /** The `finally` block terminates the chat exactly when the loop has left and the instance
      is still there; a loop that left because the instance was cleared never terminates it. */
  lemma {:induction false} ListenFinally(script: seq<ChatPoll>, shutdown: Flag, gone: Flag, k: nat, s: nat, g: nat)
    requires k <= |script|
    ensures var r := Listen(script, shutdown, gone, k, s, g); r.terminated ==> r.exit != StillRunning
    ensures var r := Listen(script, shutdown, gone, k, s, g); r.exit == InstanceGone ==> !r.terminated
    ensures gone == Never ==>
      var r := Listen(script, shutdown, gone, k, s, g); r.terminated <==> r.exit != StillRunning
    decreases |script| - k
  {
    if shutdown.SeenAt(s) || k == |script| {
      ListenHalts(script, shutdown, gone, k, s, g);
    } else if Iterate(script[k], shutdown, gone, s, g).Stop? {
      ListenStops(script, shutdown, gone, k, s, g);
      IterateStops(script[k], shutdown, gone, s, g);
      if Iterate(script[k], shutdown, gone, s, g).exit == InstanceGone {
        SeenStays(gone, g, g + 1);
      }
    } else {
      var st := Iterate(script[k], shutdown, gone, s, g);
      ListenContinues(script, shutdown, gone, k, s, g);
      ListenFinally(script, shutdown, gone, k + 1, st.next, g + 1);
    }
  }

  /** Once the shutdown flag is visible the callback is not called again: if reads from
      index n on see the flag, at most n - s items are delivered, and none at all when the
      first head read already sees it. Every poll happens after a clear head read, so at most
      n - s rounds poll; and a flag visible by read s + (rounds left) always ends the loop. */
  lemma {:induction false} ListenShutdownBound(script: seq<ChatPoll>, shutdown: Flag, gone: Flag, k: nat, s: nat, g: nat)
    requires k <= |script|
    ensures shutdown.SetBefore? && !shutdown.SeenAt(s) ==>
      s + |Listen(script, shutdown, gone, k, s, g).delivered| <= shutdown.n
    ensures shutdown.SeenAt(s) ==>
      var r := Listen(script, shutdown, gone, k, s, g); r.delivered == [] && r.exit == ShutdownSeen && r.polls == k
    ensures shutdown.SetBefore? && !shutdown.SeenAt(s) ==>
      s + (Listen(script, shutdown, gone, k, s, g).polls - k) <= shutdown.n
    ensures shutdown.SetBefore? && shutdown.n <= s + (|script| - k) ==>
      Listen(script, shutdown, gone, k, s, g).exit != StillRunning
    decreases |script| - k
  {
    if shutdown.SeenAt(s) || k == |script| {
      ListenHalts(script, shutdown, gone, k, s, g);
    } else if Iterate(script[k], shutdown, gone, s, g).Stop? {
      ListenStops(script, shutdown, gone, k, s, g);
      IterateStops(script[k], shutdown, gone, s, g);
    } else {
      var st := Iterate(script[k], shutdown, gone, s, g);
      ListenContinues(script, shutdown, gone, k, s, g);
      IterateContinues(script[k], shutdown, gone, s, g);
      ListenShutdownBound(script, shutdown, gone, k + 1, st.next, g + 1);
    }
  }
}

=== FILE: manual_input.dfy ===
/**
 The manual test mode `manual_message_input`: console lines are fed to the message handler
 as chat items from the author "Tester" until a line is `quit` or `exit` in any case, the
 input ends, or the shutdown flag is seen. Round j reads the flag at its head (read 2j) and
 again right after the line is read (read 2j+1).
 */
module ManualInput {
  import opened Wrappers
  import opened Text
  import opened Signals
  import opened Activation

  const Tester: string := "Tester"

  /** Why the session ended: the flag was seen, a quit word was typed, or the console input
      ended (`EOFError`). */
  datatype Ending = ShutdownSeen | Quit | EndOfInput

  /** The items handed to the handler, how many lines were read, and why the session ended. */
  datatype Session = Session(fed: seq<ChatItem>, read: nat, ending: Ending)

  /** The mock item the session builds for a line. */
  function TesterItem(line: string): ChatItem {
    ChatItem(Some(Tester), Some(line))
  }

  function TesterItems(lines: seq<string>): (r: seq<ChatItem>)
    ensures |r| == |lines|
  {
    seq(|lines|, i requires 0 <= i < |lines| => TesterItem(lines[i]))
  }

  /** The line, lower-cased but not stripped, is one of the two quit words. */
  predicate IsQuit(line: string) {
    ToLower(line) == "quit" || ToLower(line) == "exit"
  }

  /** The session from round j on, over the console lines `lines`. */
  function Manual(lines: seq<string>, shutdown: Flag, j: nat): (r: Session)
    requires j <= |lines|
    ensures j <= r.read <= |lines|
    decreases |lines| - j
  {
    if shutdown.SeenAt(2 * j) then Session([], j, ShutdownSeen)
    else if j == |lines| then Session([], j, EndOfInput)
    else if shutdown.SeenAt(2 * j + 1) then Session([], j + 1, ShutdownSeen)
    else if IsQuit(lines[j]) then Session([], j + 1, Quit)
    else
      var rest := Manual(lines, shutdown, j + 1);
      Session([TesterItem(lines[j])] + rest.fed, rest.read, rest.ending)
  }

  /** `manual_message_input` from its first round. */
  function ManualSession(lines: seq<string>, shutdown: Flag): Session {
    Manual(lines, shutdown, 0)
  }

  /** The index of the first quit line at or after j, or the number of lines if there is none. */
  function FirstQuit(lines: seq<string>, j: nat): (q: nat)
    requires j <= |lines|
    ensures j <= q <= |lines|
    decreases |lines| - j
  {
    if j == |lines| || IsQuit(lines[j]) then j else FirstQuit(lines, j + 1)
  }

  lemma {:induction false} FirstQuitIsFirst(lines: seq<string>, j: nat)
    requires j <= |lines|
    ensures var q := FirstQuit(lines, j); q < |lines| ==> IsQuit(lines[q])
    ensures var q := FirstQuit(lines, j); forall i :: j <= i < q ==> !IsQuit(lines[i])
    decreases |lines| - j
  {
    if j < |lines| && !IsQuit(lines[j]) {
      FirstQuitIsFirst(lines, j + 1);
    }
  }

  lemma TesterItemsStep(lines: seq<string>, j: nat, q: nat)
    requires j < q <= |lines|
    ensures TesterItems(lines[j..q]) == [TesterItem(lines[j])] + TesterItems(lines[j + 1..q])
  {
    assert TesterItems(lines[j..q])[0] == TesterItem(lines[j]);
    assert TesterItems(lines[j..q])[1..] == TesterItems(lines[j + 1..q]);
  }

  /** With no shutdown the handler gets every line before the first quit word, in order, and
      the session ends on that word, or at the end of input when none is typed. */
  lemma {:induction false} ManualFeedsUntilQuit(lines: seq<string>, j: nat)
    requires j <= |lines|
    ensures var r := Manual(lines, Never, j); var q := FirstQuit(lines, j);
      r.fed == TesterItems(lines[j..q])
      && r.ending == (if q < |lines| then Quit else EndOfInput)
      && r.read == (if q < |lines| then q + 1 else q)
    decreases |lines| - j
  {
    if j < |lines| && !IsQuit(lines[j]) {
      ManualFeedsUntilQuit(lines, j + 1);
      TesterItemsStep(lines, j, FirstQuit(lines, j + 1));
    }
  }

  /** Whatever the flag does, the handler gets an initial run of the lines before the first
      quit word, and nothing once the session has seen the flag: every line it gets was read
      in a round whose two reads (at its head and after `input()`) both found the flag clear;
      and a session that ends on the flag ended on one of its own reads that saw it. */
  lemma {:induction false} ManualFeedsPrefix(lines: seq<string>, shutdown: Flag, j: nat)
    requires j <= |lines|
    ensures var r := Manual(lines, shutdown, j);
      r.fed <= TesterItems(lines[j..FirstQuit(lines, j)])
    ensures var r := Manual(lines, shutdown, j);
      r.ending == Quit ==> r.fed == TesterItems(lines[j..FirstQuit(lines, j)]) && r.read == FirstQuit(lines, j) + 1
    ensures shutdown.SeenAt(2 * j) ==> Manual(lines, shutdown, j) == Session([], j, ShutdownSeen)
    ensures shutdown.SetBefore? && !shutdown.SeenAt(2 * j) ==>
      2 * (j + |Manual(lines, shutdown, j).fed|) <= shutdown.n
    ensures var r := Manual(lines, shutdown, j); r.ending == ShutdownSeen ==> shutdown.SeenAt(2 * r.read)
    decreases |lines| - j
  {
    if !shutdown.SeenAt(2 * j) && j < |lines| && !shutdown.SeenAt(2 * j + 1) && !IsQuit(lines[j]) {
      var rest := Manual(lines, shutdown, j + 1);
      var q := FirstQuit(lines, j + 1);
      ManualFeedsPrefix(lines, shutdown, j + 1);
      TesterItemsStep(lines, j, q);
      assert [TesterItem(lines[j])] + rest.fed <= [TesterItem(lines[j])] + TesterItems(lines[j + 1..q]) by {
        assert ([TesterItem(lines[j])] + TesterItems(lines[j + 1..q]))[..1 + |rest.fed|]
            == [TesterItem(lines[j])] + TesterItems(lines[j + 1..q])[..|rest.fed|];
      }
    }
  }

  /** `manual_message_input` with no shutdown: the handler gets exactly the lines typed before
      the first quit word, and the session ends on that word or at the end of input. */
  lemma ManualSessionUntilQuit(lines: seq<string>)
    ensures var r := ManualSession(lines, Never); var q := FirstQuit(lines, 0);
      r.fed == TesterItems(lines[..q]) && r.ending == (if q < |lines| then Quit else EndOfInput)
  {
    ManualFeedsUntilQuit(lines, 0);
    assert lines[0..FirstQuit(lines, 0)] == lines[..FirstQuit(lines, 0)];
  }

  /** The quit words are matched in any case but exactly: surrounding spaces make an ordinary
      message. */
  lemma QuitWords()
    ensures IsQuit("quit") && IsQuit("QUIT") && IsQuit("Exit") && IsQuit("eXiT")
    ensures !IsQuit(" quit") && !IsQuit("quit ") && !IsQuit("quit now")
  {
    assert ToLower("QUIT") == "quit" by { assert ToLower("QUIT")[0] == 'q'; }
    assert ToLower("Exit") == "exit";
    assert ToLower("eXiT") == "exit";
    assert ToLower(" quit")[0] == ' ';
    assert ToLower("quit ")[4] == ' ';
    assert |ToLower("quit now")| == 8;
  }
}

=== FILE: signals.dfy ===
/**
 Cross-thread flags as one thread sees them. The shutdown event is set once and never
 cleared, so for a given reader it is described completely by the first of that reader's
 reads that finds it set. The same shape describes the `pytchat_instance` global being
 cleared by another thread.
 */
module Signals {

  /** `Never`: every read finds the flag clear. `SetBefore(n)`: reads 0 .. n-1 find it clear,
      read n and every later read find it set. Reads are numbered per reader from 0. */
  datatype Flag = Never | SetBefore(n: nat) {

    predicate SeenAt(i: nat) {
      SetBefore? && n <= i
    }
  }

  /** Once a reader has seen the flag set, every later read sees it set too. */
  lemma SeenStays(f: Flag, i: nat, j: nat)
    requires i <= j && f.SeenAt(i)
    ensures f.SeenAt(j)
  {
  }
}

=== FILE: supervisor.dfy ===
/**
 The main thread's shutdown sequence, and the pieces put together: chat items through the
 handler onto the queue and through the worker to the speech service.
 */
module Supervisor {
  import opened Wrappers
  import opened Text
  import opened Signals
  import opened WorkQueue
  import opened Activation
  import opened TtsWorker
  import opened Listener

  /** The steps of the `finally` block after the server stops. */
  datatype Action = SetShutdown | TerminateChat | JoinInput | PushPoison | JoinWorker

  /** The fixed order of the steps. */
  function Rank(a: Action): nat {
    match a
      case SetShutdown => 0
      case TerminateChat => 1
      case JoinInput => 2
      case PushPoison => 3
      case JoinWorker => 4
  }

  /** The shutdown sequence, given whether a chat instance exists and whether the input and
      worker threads are still alive when their join is due. */
  function ShutdownActions(instancePresent: bool, inputAlive: bool, workerAlive: bool): (r: seq<Action>)
    ensures |r| > 0 && r[0] == SetShutdown
    ensures forall i, j :: 0 <= i < j < |r| ==> Rank(r[i]) < Rank(r[j])
    ensures PushPoison in r
    ensures TerminateChat in r <==> instancePresent
    ensures JoinInput in r <==> inputAlive
    ensures JoinWorker in r <==> workerAlive
  {
    [SetShutdown]
    + (if instancePresent then [TerminateChat] else [])
    + (if inputAlive then [JoinInput] else [])
    + [PushPoison]
    + (if workerAlive then [JoinWorker] else [])
  }

  /** The sentinel goes on the queue exactly once, after the flag is set and after the input
      thread has been waited for. */
  lemma PoisonOnce(instancePresent: bool, inputAlive: bool, workerAlive: bool)
    ensures var r := ShutdownActions(instancePresent, inputAlive, workerAlive);
      exists p :: 0 < p < |r| && r[p] == PushPoison
        && (forall i :: 0 <= i < |r| && i != p ==> r[i] != PushPoison)
        && (forall i :: 0 <= i < p ==> r[i] != JoinWorker)
        && (forall i :: p < i < |r| ==> r[i] == JoinWorker)
  {
    var r := ShutdownActions(instancePresent, inputAlive, workerAlive);
    var p :| 0 <= p < |r| && r[p] == PushPoison;
    assert p != 0;
    forall i | 0 <= i < |r| && i != p
      ensures r[i] != PushPoison
    {
      if i < p { assert Rank(r[i]) < Rank(r[p]); } else { assert Rank(r[p]) < Rank(r[i]); }
    }
    forall i | 0 <= i < p
      ensures r[i] != JoinWorker
    {
      assert Rank(r[i]) < Rank(r[p]);
    }
    forall i | p < i < |r|
      ensures r[i] == JoinWorker
    {
      assert Rank(r[p]) < Rank(r[i]);
    }
  }

  lemma SpeechesAreSpeak(items: seq<ChatItem>)
    ensures Poison !in Speeches(items)
    decreases |items|
  {
    if items != [] {
      SpeechesAreSpeak(items[1..]);
    }
  }

  lemma SentinelBehind(pending: seq<Job>, late: seq<Job>, m: nat)
    requires m <= |pending| + 1
    ensures (pending + [Poison] + late)[..m] == (pending + [Poison])[..m]
    ensures Texts(pending + [Poison]) == Texts(pending)
    ensures (pending + [Poison] + late)[|pending|] == Poison
  {
    TextsAppend(pending, [Poison]);
    assert Texts([Poison]) == [] by { assert [Poison][1..] == []; }
  }

  /** After the sentinel is pushed behind the jobs still pending, the worker ends with
      `cleanup` whatever the flag does, speaks an in-order prefix of the pending texts, and
      never takes a job pushed after the sentinel. */
  lemma DrainStopsAtSentinel(pending: seq<Job>, late: seq<Job>, raises: seq<bool>, shutdown: Flag)
    ensures var r := Worker(pending + [Poison] + late, raises, shutdown);
      r.end == Cleaned && r.popped <= |pending| + 1 && Spoken(r.trace) <= Texts(pending)
  {
    var jobs := pending + [Poison] + late;
    var r := Worker(jobs, raises, shutdown);
    SentinelBehind(pending, late, 0);
    WorkSentinel(jobs, raises, shutdown, 0, |pending|);
    WorkFifo(jobs, raises, shutdown, 0);
    SentinelBehind(pending, late, r.popped);
    TextsPrefix(pending + [Poison], r.popped);
  }

  /** A worker that never sees the flag speaks every pending text, in order, and stops on the
      sentinel. */
  lemma DrainSpeaksAllPending(pending: seq<Job>, late: seq<Job>, raises: seq<bool>)
    requires Poison !in pending
    ensures var r := Worker(pending + [Poison] + late, raises, Never);
      r.end == Cleaned && r.popped == |pending| + 1 && Spoken(r.trace) == Texts(pending)
  {
    var jobs := pending + [Poison] + late;
    var r := Worker(jobs, raises, Never);
    SentinelBehind(pending, late, |pending| + 1);
    forall i | 0 <= i < |pending|
      ensures jobs[i].Speak?
    {
      assert jobs[i] == pending[i];
      assert pending[i] in pending;
    }
    WorkSentinel(jobs, raises, Never, 0, |pending|);
    WorkFifo(jobs, raises, Never, 0);
    assert jobs[0..r.popped] == pending + [Poison];
  }

  /** The relay from chat to speech: with neither flag ever seen and no critical poll outcome,
      every matching item the chat returns is announced on the overlay and its payload is
      spoken, once and in chat order, after which the sentinel ends the worker. */
  lemma RelayEndToEnd(script: seq<ChatPoll>, raises: seq<bool>)
    requires forall i :: 0 <= i < |script| ==> KeepsGoing(script[i])
    ensures var run := ListenerLoop(script, Never, Never);
      var jobs := Queued(Ingest(run.delivered));
      var w := Worker(jobs + [Poison], raises, Never);
      run.delivered == Batches(script) && jobs == Speeches(Batches(script))
      && w.end == Cleaned && Spoken(w.trace) == Texts(jobs)
  {
    var run := ListenerLoop(script, Never, Never);
    ListenRunsOn(script, 0, 0, 0);
    assert script[0..] == script;
    IngestQueuesAll(run.delivered);
    var jobs := Queued(Ingest(run.delivered));
    SpeechesAreSpeak(run.delivered);
    assert jobs + [Poison] == jobs + [Poison] + [];
    DrainSpeaksAllPending(jobs, [], raises);
  }

  // ---------------------------------------------------------------------------------------
  // Worked scenarios

  /** Alice writes "FAUST SAYS hello world": the overlay shows "Alice: hello world" and
      the queue gets "hello world". */
  lemma AliceIsShown()
    ensures Handle(ChatItem(Some("Alice"), Some("FAUST SAYS hello world")))
         == [NewMessage("Alice: hello world"), Enqueued(Speak("hello world"))]
  {
    var item := ChatItem(Some("Alice"), Some("FAUST SAYS hello world"));
    AliceMatches();
    assert Filter(item) == Some(Relay("hello world", "Alice: hello world"));
  }

  lemma AliceMatches()
    ensures Filter(ChatItem(Some("Alice"), Some("FAUST SAYS hello world")))
         == Some(Relay("hello world", "Alice: hello world"))
  {
    assert "FAUST SAYS hello world" == "FAUST SAYS " + "hello world";
    assert "Alice: hello world" == "Alice" + ": " + "hello world";
    assert ToLower("FAUST SAYS ") == Phrase;
    assert Tight("hello world");
    PhraseThenText("Alice", "FAUST SAYS ", "hello world");
  }

  /** The phrase in some case followed directly by tight text relays that text. */
  lemma PhraseThenText(author: string, p: string, s: string)
    requires ToLower(p) == Phrase && s != [] && Tight(s)
    ensures Filter(ChatItem(Some(author), Some(p + s))) == Some(Relay(s, author + ": " + s))
  {
    assert !AllSpace(s) by { assert !IsSpace(s[0]); }
    assert StripsTo(s, [], s, []);
    TrimUnique(s, [], s, []);
    assert [] + p + s == p + s;
    FilterAfterPhrase(Some(author), [], p, s);
  }

  /** The queued "hello world" is passed to the speech service between the two notices. */
  lemma AliceIsSpoken()
    ensures Worker([Speak("hello world"), Poison], [], Never).trace
         == [TtsStart, SpeakCall("hello world", false), TtsStop, TaskDone, Cleanup]
  {
    var jobs := [Speak("hello world"), Poison];
    WorkEnds(jobs, [], Never, 1);
    WorkSpeaks(jobs, [], Never, 0);
  }

  /** A failing `speak` still gets its closing notice and its `task_done`, and the worker
      goes on to the next job. */
  lemma FailureIsAbsorbed()
    ensures Worker([Speak("a"), Speak("b"), Poison], [true], Never).trace
         == [TtsStart, SpeakCall("a", true), TtsStop, TaskDone,
             TtsStart, SpeakCall("b", false), TtsStop, TaskDone, Cleanup]
  {
    var jobs := [Speak("a"), Speak("b"), Poison];
    WorkEnds(jobs, [true], Never, 2);
    WorkSpeaks(jobs, [true], Never, 1);
    WorkSpeaks(jobs, [true], Never, 0);
  }

  /** Bob writes "hi there": nothing is shown and nothing is queued. */
  lemma BobIsIgnored()
    ensures Handle(ChatItem(Some("Bob"), Some("hi there"))) == []
  {
    var s := "hi there";
    assert Tight(s);
    TrimUnique(s, "", s, "");
    assert ToLower(s)[0] == 'h';
  }
}

=== FILE: text.dfy ===
/**
 Python's `str.strip()` (with no argument) and an ASCII `str.lower()`,
 the only string operations the activation filter uses.
 */
module Text {

  /** Python's `str.isspace()` for one character: ASCII tab .. carriage return,
      the four ASCII separators 0x1C..0x1F, space, and the Unicode space characters. */
  predicate IsSpace(c: char) {
    || c == ' '
    || ('\t' <= c <= '\r')
    || ('\U{1c}' <= c <= '\U{1f}')
    || c == '\U{85}' || c == '\U{a0}' || c == '\U{1680}'
    || ('\U{2000}' <= c <= '\U{200a}')
    || c == '\U{2028}' || c == '\U{2029}' || c == '\U{202f}' || c == '\U{205f}' || c == '\U{3000}'
  }

  predicate AllSpace(s: string) {
    forall k :: 0 <= k < |s| ==> IsSpace(s[k])
  }

  /** Neither end of `s` is whitespace: what a stripped string looks like. */
  predicate Tight(s: string) {
    s == [] || (!IsSpace(s[0]) && !IsSpace(s[|s| - 1]))
  }

  /** `s` with its leading whitespace removed. */
  function TrimStart(s: string): (r: string)
    ensures |r| <= |s|
    decreases |s|
  {
    if |s| > 0 && IsSpace(s[0]) then TrimStart(s[1..]) else s
  }

  /** `s` with its trailing whitespace removed. */
  function TrimEnd(s: string): (r: string)
    ensures |r| <= |s|
    decreases |s|
  {
    if |s| > 0 && IsSpace(s[|s| - 1]) then TrimEnd(s[..|s| - 1]) else s
  }

  /** Python's `s.strip()`. */
  function Trim(s: string): string {
    TrimEnd(TrimStart(s))
  }

  /** `r` is `s` with whitespace `a` cut from the front and `b` from the back, and no more can be cut. */
  predicate StripsTo(s: string, a: string, r: string, b: string) {
    s == a + r + b && AllSpace(a) && AllSpace(b) && Tight(r)
  }

  lemma AllSpaceAppend(a: string, b: string)
    requires AllSpace(a) && AllSpace(b)
    ensures AllSpace(a + b)
  {
    assert forall k :: 0 <= k < |a + b| ==> (a + b)[k] == (if k < |a| then a[k] else b[k - |a|]);
  }

  /** `TrimStart` removes whitespace only, and leaves a string that does not start with it. */
  lemma {:induction false} TrimStartSplit(s: string) returns (a: string)
    ensures s == a + TrimStart(s) && AllSpace(a)
    ensures TrimStart(s) == [] || !IsSpace(TrimStart(s)[0])
    decreases |s|
  {
    if |s| > 0 && IsSpace(s[0]) {
      var a' := TrimStartSplit(s[1..]);
      a := [s[0]] + a';
      AllSpaceAppend([s[0]], a');
      assert s == [s[0]] + s[1..];
    } else {
      a := [];
    }
  }

  /** `TrimEnd` removes whitespace only, and leaves a string that does not end with it. */
  lemma {:induction false} TrimEndSplit(s: string) returns (b: string)
    ensures s == TrimEnd(s) + b && AllSpace(b)
    ensures TrimEnd(s) == [] || !IsSpace(TrimEnd(s)[|TrimEnd(s)| - 1])
    decreases |s|
  {
    if |s| > 0 && IsSpace(s[|s| - 1]) {
      var b' := TrimEndSplit(s[..|s| - 1]);
      b := b' + [s[|s| - 1]];
      AllSpaceAppend(b', [s[|s| - 1]]);
      assert s == s[..|s| - 1] + [s[|s| - 1]];
    } else {
      b := [];
    }
  }

  /** Removing leading whitespace `a` in front of a string that does not start with whitespace. */
  lemma {:induction false} TrimStartSpacePrefix(a: string, t: string)
    requires AllSpace(a)
    requires t == [] || !IsSpace(t[0])
    ensures TrimStart(a + t) == t
    decreases |a|
  {
    if a == [] {
      assert a + t == t;
    } else {
      assert (a + t)[1..] == a[1..] + t;
      TrimStartSpacePrefix(a[1..], t);
    }
  }

  /** Removing trailing whitespace `b` behind a string that does not end with whitespace. */
  lemma {:induction false} TrimEndSpaceSuffix(t: string, b: string)
    requires AllSpace(b)
    requires t == [] || !IsSpace(t[|t| - 1])
    ensures TrimEnd(t + b) == t
    decreases |b|
  {
    if b == [] {
      assert t + b == t;
    } else {
      assert (t + b)[..|t + b| - 1] == t + b[..|b| - 1];
      TrimEndSpaceSuffix(t, b[..|b| - 1]);
    }
  }

  lemma SplitsCombine(s: string, a: string, t: string, r: string, b: string)
    requires s == a + t && AllSpace(a) && (t == [] || !IsSpace(t[0]))
    requires t == r + b && AllSpace(b) && (r == [] || !IsSpace(r[|r| - 1]))
    ensures StripsTo(s, a, r, b)
  {
    if r != [] {
      assert r[0] == t[0];
    }
  }

  /** Existence: `Trim` cuts only whitespace at either end and leaves a tight string. */
  lemma TrimDecomposes(s: string) returns (a: string, b: string)
    ensures StripsTo(s, a, Trim(s), b)
  {
    a := TrimStartSplit(s);
    b := TrimEndSplit(TrimStart(s));
    SplitsCombine(s, a, TrimStart(s), TrimEnd(TrimStart(s)), b);
  }

  /** Uniqueness: any whitespace/tight/whitespace split of `s` is the one `Trim` finds. */
  lemma TrimUnique(s: string, a: string, r: string, b: string)
    requires StripsTo(s, a, r, b)
    ensures Trim(s) == r
  {
    if r == [] {
      assert s == a + b;
      AllSpaceAppend(a, b);
      TrimStartSpacePrefix(a + b, []);
      assert a + b + [] == a + b;
    } else {
      assert s == a + (r + b);
      TrimStartSpacePrefix(a, r + b);
      TrimEndSpaceSuffix(r, b);
    }
  }

  lemma TrimTight(s: string)
    ensures Tight(Trim(s))
  {
    var _, _ := TrimDecomposes(s);
  }

  /** Stripping twice is stripping once. */
  lemma TrimIdempotent(s: string)
    ensures Trim(Trim(s)) == Trim(s)
  {
    var r := Trim(s);
    TrimTight(s);
    assert r == [] + r + [];
    TrimUnique(r, [], r, []);
  }

  /** A string is stripped to nothing exactly when it is all whitespace. */
  lemma TrimEmptyIff(s: string)
    ensures Trim(s) == [] <==> AllSpace(s)
  {
    if AllSpace(s) {
      assert s == s + [] + [];
      TrimUnique(s, s, [], []);
    } else {
      var a, b := TrimDecomposes(s);
    }
  }

  lemma TrimEndEmptyIff(s: string)
    ensures TrimEnd(s) == [] <==> AllSpace(s)
  {
    var b := TrimEndSplit(s);
    if AllSpace(s) {
      TrimEndSpaceSuffix([], s);
      assert [] + s == s;
    }
  }

  /** Behind leading whitespace, a string `p` that starts with a non-space survives `strip`
      whole when something after it is not whitespace; only the trailing whitespace goes. */
  lemma TrimKeepsFront(lead: string, p: string, s: string)
    requires AllSpace(lead) && p != [] && !IsSpace(p[0]) && !AllSpace(s)
    ensures Trim(lead + p + s) == p + TrimEnd(s)
  {
    var b := TrimEndSplit(s);
    var e := TrimEnd(s);
    TrimEndEmptyIff(s);
    var m := p + e;
    assert p + s == m + b;
    assert lead + p + s == lead + m + b;
    assert m[0] == p[0] && m[|m| - 1] == e[|e| - 1];
    assert StripsTo(lead + p + s, lead, m, b);
    TrimUnique(lead + p + s, lead, m, b);
  }

  /** A string `q + [c]` with tight `q` and whitespace `c`, followed by only whitespace,
      strips to `q`. */
  lemma TrimDropsLast(lead: string, q: string, c: char, s: string)
    requires AllSpace(lead) && Tight(q) && IsSpace(c) && AllSpace(s)
    ensures Trim(lead + (q + [c]) + s) == q
  {
    var b := [c] + s;
    AllSpaceAppend([c], s);
    assert lead + (q + [c]) + s == lead + q + b;
    TrimUnique(lead + q + b, lead, q, b);
  }

  /** Cutting only the trailing whitespace first does not change what `strip` returns. */
  lemma TrimAfterTrimEnd(s: string)
    ensures Trim(TrimEnd(s)) == Trim(s)
  {
    var a, b := TrimDecomposes(s);
    var core := Trim(s);
    if core == [] {
      TrimEmptyIff(s);
      TrimEndSpaceSuffix([], s);
      assert [] + s == s;
    } else {
      TrimEndSpaceSuffix(a + core, b);
      assert TrimEnd(s) == a + core + [];
      TrimUnique(TrimEnd(s), a, core, []);
    }
  }

  function LowerChar(c: char): char {
    if 'A' <= c <= 'Z' then (c as int + 32) as char else c
  }

  /** ASCII `str.lower()`: upper-case ASCII letters become lower case, every other character stays. */
  function ToLower(s: string): (r: string)
    ensures |r| == |s|
  {
    seq(|s|, k requires 0 <= k < |s| => LowerChar(s[k]))
  }

  /** Lowering keeps whitespace and non-whitespace apart. */
  lemma LowerKeepsSpace(c: char)
    ensures IsSpace(LowerChar(c)) <==> IsSpace(c)
  {
  }

  /** Lowering works character by character, so it distributes over concatenation. */
  lemma ToLowerAppend(a: string, b: string)
    ensures ToLower(a + b) == ToLower(a) + ToLower(b)
  {
    assert forall k :: 0 <= k < |a + b| ==> ToLower(a + b)[k] == (ToLower(a) + ToLower(b))[k];
  }

  lemma ToLowerPrefix(s: string, n: nat)
    requires n <= |s|
    ensures ToLower(s)[..n] == ToLower(s[..n])
  {
  }
}

=== FILE: tts_worker.dfy ===
/**
 The TTS worker `tts_worker`: the single consumer of the work queue. Each round pops one
 job; the sentinel ends the loop; any other job is bracketed by `tts_start` and `tts_stop`
 notices around the blocking `speak` call, whose failure is absorbed. `cleanup` runs once
 when the loop ends.

 The worker reads the shutdown flag at the head of each round (read 2k for round k) and,
 for a spoken job, once more in the `finally` block (read 2k+1); `None` skips the second
 read because the `is not None` test short-circuits.
 */
module TtsWorker {
  import opened WorkQueue
  import opened Signals

  /** What the worker does that can be observed: overlay notices, calls into the speech
      service (with whether the call raised), `task_done`, and the final `cleanup`. */
  datatype Event = TtsStart | SpeakCall(text: string, raised: bool) | TtsStop | TaskDone | Cleanup

  /** `Cleaned`: the loop ended and `cleanup` ran. `Blocked`: the worker waits in `get` on an
      empty queue (the scripted queue ran out without a sentinel). */
  datatype End = Cleaned | Blocked

  /** A run of the worker: its events, how many jobs it popped, and how it ended. */
  datatype Run = Run(trace: seq<Event>, popped: nat, end: End)

  /** Whether the `speak` call for the job popped k-th raises; jobs the script says nothing
      about are spoken without error. */
  function Raises(raises: seq<bool>, k: nat): bool {
    k < |raises| && raises[k]
  }

  /** The events of round k for a spoken job: notices bracket the call; the closing notice is
      skipped only when the `finally` block already sees the shutdown flag. */
  function Round(t: string, raised: bool, stopped: bool): seq<Event> {
    [TtsStart, SpeakCall(t, raised)] + (if stopped then [TtsStop] else []) + [TaskDone]
  }

  /** The worker from its k-th round on; `jobs[k]` is the k-th job `get` returns (FIFO). */
  function Work(jobs: seq<Job>, raises: seq<bool>, shutdown: Flag, k: nat): (r: Run)
    requires k <= |jobs|
    ensures k <= r.popped <= |jobs|
    decreases |jobs| - k
  {
    if shutdown.SeenAt(2 * k) then Run([Cleanup], k, Cleaned)
    else if k == |jobs| then Run([], k, Blocked)
    else match jobs[k]
      case Poison => Run([Cleanup], k + 1, Cleaned)
      case Speak(t) =>
        var rest := Work(jobs, raises, shutdown, k + 1);
        Run(Round(t, Raises(raises, k), !shutdown.SeenAt(2 * k + 1)) + rest.trace, rest.popped, rest.end)
  }

  /** `tts_worker` over a queue holding `jobs`. */
  function Worker(jobs: seq<Job>, raises: seq<bool>, shutdown: Flag): Run {
    Work(jobs, raises, shutdown, 0)
  }

  // ---------------------------------------------------------------------------------------
  // Views of a trace and of a job sequence

  /** The texts passed to `speak`, in call order. */
  function Spoken(t: seq<Event>): seq<string>
    decreases |t|
  {
    if t == [] then []
    else (if t[0].SpeakCall? then [t[0].text] else []) + Spoken(t[1..])
  }

  /** The texts of the non-sentinel jobs, in queue order. */
  function Texts(jobs: seq<Job>): seq<string>
    decreases |jobs|
  {
    if jobs == [] then []
    else (if jobs[0].Speak? then [jobs[0].text] else []) + Texts(jobs[1..])
  }

  function Count(t: seq<Event>, e: Event): nat
    decreases |t|
  {
    if t == [] then 0 else (if t[0] == e then 1 else 0) + Count(t[1..], e)
  }

  /** The trace with every call outcome forgotten. */
  function Erase(t: seq<Event>): seq<Event>
    decreases |t|
  {
    if t == [] then []
    else [if t[0].SpeakCall? then SpeakCall(t[0].text, false) else t[0]] + Erase(t[1..])
  }

  /** The shape of every worker trace: full rounds, then either nothing (blocked), `cleanup`,
      or one last round without `tts_stop` followed by `cleanup`. */
  predicate Bracketed(t: seq<Event>)
    decreases |t|
  {
    || t == []
    || t == [Cleanup]
    || (|t| == 4 && t[0] == TtsStart && t[1].SpeakCall? && t[2] == TaskDone && t[3] == Cleanup)
    || (|t| >= 4 && t[0] == TtsStart && t[1].SpeakCall? && t[2] == TtsStop && t[3] == TaskDone
        && Bracketed(t[4..]))
  }

  lemma {:induction false} SpokenAppend(a: seq<Event>, b: seq<Event>)
    ensures Spoken(a + b) == Spoken(a) + Spoken(b)
    decreases |a|
  {
    if a == [] {
      assert a + b == b;
    } else {
      var h := if a[0].SpeakCall? then [a[0].text] else [];
      assert (a + b)[0] == a[0];
      assert (a + b)[1..] == a[1..] + b;
      assert Spoken(a + b) == h + Spoken(a[1..] + b);
      SpokenAppend(a[1..], b);
      assert h + (Spoken(a[1..]) + Spoken(b)) == (h + Spoken(a[1..])) + Spoken(b);
    }
  }

  lemma {:induction false} CountAppend(a: seq<Event>, b: seq<Event>, e: Event)
    ensures Count(a + b, e) == Count(a, e) + Count(b, e)
    decreases |a|
  {
    if a == [] {
      assert a + b == b;
    } else {
      assert (a + b)[0] == a[0];
      assert (a + b)[1..] == a[1..] + b;
      CountAppend(a[1..], b, e);
    }
  }

  lemma {:induction false} EraseAppend(a: seq<Event>, b: seq<Event>)
    ensures Erase(a + b) == Erase(a) + Erase(b)
    decreases |a|
  {
    if a == [] {
      assert a + b == b;
    } else {
      var h := [if a[0].SpeakCall? then SpeakCall(a[0].text, false) else a[0]];
      assert (a + b)[0] == a[0];
      assert (a + b)[1..] == a[1..] + b;
      assert Erase(a + b) == h + Erase(a[1..] + b);
      EraseAppend(a[1..], b);
      assert h + (Erase(a[1..]) + Erase(b)) == (h + Erase(a[1..])) + Erase(b);
    }
  }

  lemma TextsStep(jobs: seq<Job>, k: nat, m: nat)
    requires k < m <= |jobs|
    ensures Texts(jobs[k..m]) == (if jobs[k].Speak? then [jobs[k].text] else []) + Texts(jobs[k + 1..m])
  {
    assert jobs[k..m][1..] == jobs[k + 1..m];
  }

  lemma SingleFacts(e: Event)
    ensures Spoken([e]) == (if e.SpeakCall? then [e.text] else [])
    ensures forall x :: Count([e], x) == (if e == x then 1 else 0)
    ensures Erase([e]) == [if e.SpeakCall? then SpeakCall(e.text, false) else e]
  {
    assert [e][1..] == [];
  }

  lemma RoundSpoken(t: string, raised: bool, stopped: bool)
    ensures Spoken(Round(t, raised, stopped)) == [t]
  {
    var c := if stopped then [TtsStop] else [];
    SingleFacts(TtsStart);
    SingleFacts(SpeakCall(t, raised));
    SingleFacts(TtsStop);
    SingleFacts(TaskDone);
    assert Spoken(c) == [] by {
      if stopped { SingleFacts(TtsStop); } else { assert c == []; }
    }
    SpokenAppend([TtsStart], [SpeakCall(t, raised)]);
    SpokenAppend([TtsStart] + [SpeakCall(t, raised)], c);
    SpokenAppend([TtsStart] + [SpeakCall(t, raised)] + c, [TaskDone]);
    assert Round(t, raised, stopped) == [TtsStart] + [SpeakCall(t, raised)] + c + [TaskDone];
  }

  lemma RoundCount(t: string, raised: bool, stopped: bool, x: Event)
    ensures Count(Round(t, raised, stopped), x)
         == Count([TtsStart], x) + Count([SpeakCall(t, raised)], x)
          + (if stopped then Count([TtsStop], x) else 0) + Count([TaskDone], x)
  {
    var c := if stopped then [TtsStop] else [];
    assert Count(c, x) == (if stopped then Count([TtsStop], x) else 0) by {
      if !stopped { assert c == []; }
    }
    CountAppend([TtsStart], [SpeakCall(t, raised)], x);
    CountAppend([TtsStart] + [SpeakCall(t, raised)], c, x);
    CountAppend([TtsStart] + [SpeakCall(t, raised)] + c, [TaskDone], x);
    assert Round(t, raised, stopped) == [TtsStart] + [SpeakCall(t, raised)] + c + [TaskDone];
  }

  lemma RoundErase(t: string, raised: bool, stopped: bool)
    ensures Erase(Round(t, raised, stopped)) == Round(t, false, stopped)
  {
    var c := if stopped then [TtsStop] else [];
    SingleFacts(TtsStart);
    SingleFacts(SpeakCall(t, raised));
    SingleFacts(TaskDone);
    assert Erase(c) == c by {
      if stopped { SingleFacts(TtsStop); } else { assert c == []; }
    }
    EraseAppend([TtsStart], [SpeakCall(t, raised)]);
    EraseAppend([TtsStart] + [SpeakCall(t, raised)], c);
    EraseAppend([TtsStart] + [SpeakCall(t, raised)] + c, [TaskDone]);
    assert Round(t, raised, stopped) == [TtsStart] + [SpeakCall(t, raised)] + c + [TaskDone];
    assert Round(t, false, stopped) == [TtsStart] + [SpeakCall(t, false)] + c + [TaskDone];
  }

  /** The rounds in which the loop ends: shutdown seen at the head, nothing left, or the sentinel. */
  predicate Ends(jobs: seq<Job>, shutdown: Flag, k: nat)
    requires k <= |jobs|
  {
    shutdown.SeenAt(2 * k) || k == |jobs| || jobs[k] == Poison
  }

  lemma WorkEnds(jobs: seq<Job>, raises: seq<bool>, shutdown: Flag, k: nat)
    requires k <= |jobs| && Ends(jobs, shutdown, k)
    ensures var r := Work(jobs, raises, shutdown, k);
      if shutdown.SeenAt(2 * k) then r == Run([Cleanup], k, Cleaned)
      else if k == |jobs| then r == Run([], k, Blocked)
      else r == Run([Cleanup], k + 1, Cleaned)
  {
  }

  lemma WorkSpeaks(jobs: seq<Job>, raises: seq<bool>, shutdown: Flag, k: nat)
    requires k <= |jobs| && !Ends(jobs, shutdown, k)
    ensures var rest := Work(jobs, raises, shutdown, k + 1);
      Work(jobs, raises, shutdown, k)
        == Run(Round(jobs[k].text, Raises(raises, k), !shutdown.SeenAt(2 * k + 1)) + rest.trace,
               rest.popped, rest.end)
  {
  }

  // ---------------------------------------------------------------------------------------
  // Properties of the worker

  /** FIFO and no re-speaking: the texts passed to `speak` are exactly the texts of the
      popped jobs, in queue order, each once. */
  lemma {:induction false} WorkFifo(jobs: seq<Job>, raises: seq<bool>, shutdown: Flag, k: nat)
    requires k <= |jobs|
    ensures var r := Work(jobs, raises, shutdown, k); Spoken(r.trace) == Texts(jobs[k..r.popped])
    decreases |jobs| - k
  {
    if Ends(jobs, shutdown, k) {
      WorkEndsFifo(jobs, raises, shutdown, k);
    } else {
      var rest := Work(jobs, raises, shutdown, k + 1);
      var round := Round(jobs[k].text, Raises(raises, k), !shutdown.SeenAt(2 * k + 1));
      WorkSpeaks(jobs, raises, shutdown, k);
      WorkFifo(jobs, raises, shutdown, k + 1);
      RoundSpoken(jobs[k].text, Raises(raises, k), !shutdown.SeenAt(2 * k + 1));
      SpokenAppend(round, rest.trace);
      TextsStep(jobs, k, rest.popped);
    }
  }

  lemma WorkEndsFifo(jobs: seq<Job>, raises: seq<bool>, shutdown: Flag, k: nat)
    requires k <= |jobs| && Ends(jobs, shutdown, k)
    ensures var r := Work(jobs, raises, shutdown, k); Spoken(r.trace) == Texts(jobs[k..r.popped])
  {
    WorkEnds(jobs, raises, shutdown, k);
    SingleFacts(Cleanup);
    if !shutdown.SeenAt(2 * k) && k < |jobs| {
      TextsStep(jobs, k, k + 1);
      assert jobs[k + 1..k + 1] == [];
    }
  }

  /** One spoken round in front of a trace adds one `task_done`, one `speak` call, a `tts_stop`
      when the round is closed, and no `cleanup`. */
  lemma StepCounts(t: string, raised: bool, stopped: bool, rest: seq<Event>)
    ensures Count(Round(t, raised, stopped) + rest, TaskDone) == 1 + Count(rest, TaskDone)
    ensures Count(Round(t, raised, stopped) + rest, TtsStop) == (if stopped then 1 else 0) + Count(rest, TtsStop)
    ensures Count(Round(t, raised, stopped) + rest, Cleanup) == Count(rest, Cleanup)
    ensures |Spoken(Round(t, raised, stopped) + rest)| == 1 + |Spoken(rest)|
  {
    var round := Round(t, raised, stopped);
    SingleFacts(TtsStart);
    SingleFacts(SpeakCall(t, raised));
    SingleFacts(TtsStop);
    SingleFacts(TaskDone);
    RoundCount(t, raised, stopped, TaskDone);
    RoundCount(t, raised, stopped, TtsStop);
    RoundCount(t, raised, stopped, Cleanup);
    RoundSpoken(t, raised, stopped);
    CountAppend(round, rest, TaskDone);
    CountAppend(round, rest, TtsStop);
    CountAppend(round, rest, Cleanup);
    SpokenAppend(round, rest);
  }

  /** A round in front of a trace does not change its last event. */
  lemma StepLast(t: string, raised: bool, stopped: bool, rest: seq<Event>)
    requires rest != []
    ensures var tr := Round(t, raised, stopped) + rest; tr[|tr| - 1] == rest[|rest| - 1]
  {
  }

  /** Rounds that differ only in the call outcome erase alike, and so do traces they head. */
  lemma StepErase(t: string, raised1: bool, raised2: bool, stopped: bool, rest1: seq<Event>, rest2: seq<Event>)
    requires Erase(rest1) == Erase(rest2)
    ensures Erase(Round(t, raised1, stopped) + rest1) == Erase(Round(t, raised2, stopped) + rest2)
  {
    RoundErase(t, raised1, stopped);
    RoundErase(t, raised2, stopped);
    EraseAppend(Round(t, raised1, stopped), rest1);
    EraseAppend(Round(t, raised2, stopped), rest2);
  }

  /** A round left open means the flag was already set at its `finally` read, so the next
      round head sees it and the loop ends with just `cleanup`. */
  lemma OpenRoundIsLast(jobs: seq<Job>, raises: seq<bool>, shutdown: Flag, k: nat)
    requires k < |jobs| && shutdown.SeenAt(2 * k + 1)
    ensures Work(jobs, raises, shutdown, k + 1).trace == [Cleanup]
  {
    SeenStays(shutdown, 2 * k + 1, 2 * (k + 1));
    WorkEnds(jobs, raises, shutdown, k + 1);
  }

  /** The first sentinel at or after round k ends the loop: nothing behind it is popped,
      and `cleanup` runs. With no shutdown, the worker gets exactly as far as that sentinel. */
  lemma {:induction false} WorkSentinel(jobs: seq<Job>, raises: seq<bool>, shutdown: Flag, k: nat, p: nat)
    requires k <= p < |jobs| && jobs[p] == Poison
    ensures var r := Work(jobs, raises, shutdown, k); r.popped <= p + 1 && r.end == Cleaned
    ensures (shutdown == Never && forall i :: k <= i < p ==> jobs[i].Speak?)
            ==> Work(jobs, raises, shutdown, k).popped == p + 1
    decreases |jobs| - k
  {
    if Ends(jobs, shutdown, k) {
      WorkEnds(jobs, raises, shutdown, k);
    } else {
      WorkSpeaks(jobs, raises, shutdown, k);
      WorkSentinel(jobs, raises, shutdown, k + 1, p);
    }
  }

  /** When the worker is left blocked it has popped every job, met no sentinel and never
      seen the flag; with no shutdown and no sentinel it is always left blocked. */
  lemma {:induction false} WorkBlocked(jobs: seq<Job>, raises: seq<bool>, shutdown: Flag, k: nat)
    requires k <= |jobs|
    ensures var r := Work(jobs, raises, shutdown, k);
      r.end == Blocked ==> r.popped == |jobs| && Poison !in jobs[k..] && !shutdown.SeenAt(2 * |jobs|)
    ensures (shutdown == Never && Poison !in jobs[k..])
            ==> var r := Work(jobs, raises, shutdown, k); r.end == Blocked && r.popped == |jobs|
    decreases |jobs| - k
  {
    if Ends(jobs, shutdown, k) {
      WorkEnds(jobs, raises, shutdown, k);
      if !shutdown.SeenAt(2 * k) && k < |jobs| {
        assert jobs[k] in jobs[k..];
      }
    } else {
      WorkSpeaks(jobs, raises, shutdown, k);
      WorkBlocked(jobs, raises, shutdown, k + 1);
      assert jobs[k..] == [jobs[k]] + jobs[k + 1..];
    }
  }

  /** `cleanup` runs exactly once when the loop ends, and never when the worker is left
      blocked. */
  lemma {:induction false} WorkCleanupOnce(jobs: seq<Job>, raises: seq<bool>, shutdown: Flag, k: nat)
    requires k <= |jobs|
    ensures var r := Work(jobs, raises, shutdown, k);
      Count(r.trace, Cleanup) == (if r.end == Cleaned then 1 else 0)
    decreases |jobs| - k
  {
    if Ends(jobs, shutdown, k) {
      WorkEnds(jobs, raises, shutdown, k);
      SingleFacts(Cleanup);
    } else {
      WorkSpeaks(jobs, raises, shutdown, k);
      WorkCleanupOnce(jobs, raises, shutdown, k + 1);
      StepCounts(jobs[k].text, Raises(raises, k), !shutdown.SeenAt(2 * k + 1),
                 Work(jobs, raises, shutdown, k + 1).trace);
    }
  }

  /** `cleanup` is the very last thing a worker whose loop ended does. */
  lemma {:induction false} WorkCleanupLast(jobs: seq<Job>, raises: seq<bool>, shutdown: Flag, k: nat)
    requires k <= |jobs|
    ensures var r := Work(jobs, raises, shutdown, k);
      r.end == Cleaned ==> r.trace != [] && r.trace[|r.trace| - 1] == Cleanup
    decreases |jobs| - k
  {
    if Ends(jobs, shutdown, k) {
      WorkEnds(jobs, raises, shutdown, k);
    } else {
      WorkSpeaks(jobs, raises, shutdown, k);
      WorkCleanupLast(jobs, raises, shutdown, k + 1);
      var rest := Work(jobs, raises, shutdown, k + 1).trace;
      if rest != [] {
        StepLast(jobs[k].text, Raises(raises, k), !shutdown.SeenAt(2 * k + 1), rest);
      }
    }
  }

  /** `task_done` is recorded once per spoken job. */
  lemma {:induction false} WorkTaskDone(jobs: seq<Job>, raises: seq<bool>, shutdown: Flag, k: nat)
    requires k <= |jobs|
    ensures var r := Work(jobs, raises, shutdown, k); Count(r.trace, TaskDone) == |Spoken(r.trace)|
    decreases |jobs| - k
  {
    if Ends(jobs, shutdown, k) {
      WorkEnds(jobs, raises, shutdown, k);
      SingleFacts(Cleanup);
    } else {
      WorkSpeaks(jobs, raises, shutdown, k);
      WorkTaskDone(jobs, raises, shutdown, k + 1);
      StepCounts(jobs[k].text, Raises(raises, k), !shutdown.SeenAt(2 * k + 1),
                 Work(jobs, raises, shutdown, k + 1).trace);
    }
  }

  /** `tts_stop` closes every `speak` call except possibly the last, which is left open only
      when the `finally` block already saw the shutdown flag. */
  lemma {:induction false} WorkStops(jobs: seq<Job>, raises: seq<bool>, shutdown: Flag, k: nat)
    requires k <= |jobs|
    ensures var r := Work(jobs, raises, shutdown, k);
      Count(r.trace, TtsStop) <= |Spoken(r.trace)| <= Count(r.trace, TtsStop) + 1
    ensures var r := Work(jobs, raises, shutdown, k);
      Count(r.trace, TtsStop) < |Spoken(r.trace)| ==> r.popped >= 1 && shutdown.SeenAt(2 * r.popped - 1)
    decreases |jobs| - k
  {
    if Ends(jobs, shutdown, k) {
      WorkEnds(jobs, raises, shutdown, k);
      SingleFacts(Cleanup);
    } else {
      var stopped := !shutdown.SeenAt(2 * k + 1);
      var rest := Work(jobs, raises, shutdown, k + 1).trace;
      WorkSpeaks(jobs, raises, shutdown, k);
      StepCounts(jobs[k].text, Raises(raises, k), stopped, rest);
      if stopped {
        WorkStops(jobs, raises, shutdown, k + 1);
      } else {
        OpenRoundIsLast(jobs, raises, shutdown, k);
        SeenStays(shutdown, 2 * k + 1, 2 * (k + 1));
        WorkEnds(jobs, raises, shutdown, k + 1);
        SingleFacts(Cleanup);
      }
    }
  }

  /** With no shutdown every `speak` call is closed by `tts_stop`. */
  lemma {:induction false} WorkStopsAll(jobs: seq<Job>, raises: seq<bool>, k: nat)
    requires k <= |jobs|
    ensures var r := Work(jobs, raises, Never, k); Count(r.trace, TtsStop) == |Spoken(r.trace)|
    decreases |jobs| - k
  {
    if Ends(jobs, Never, k) {
      WorkEnds(jobs, raises, Never, k);
      SingleFacts(Cleanup);
    } else {
      WorkSpeaks(jobs, raises, Never, k);
      StepCounts(jobs[k].text, Raises(raises, k), true, Work(jobs, raises, Never, k + 1).trace);
      WorkStopsAll(jobs, raises, k + 1);
    }
  }

  /** The trace always has the bracketed shape: each `speak` call sits between `tts_start`
      and `tts_stop`, `task_done` follows, and a round left open is the last one before
      `cleanup`. */
  lemma {:induction false} WorkBracketed(jobs: seq<Job>, raises: seq<bool>, shutdown: Flag, k: nat)
    requires k <= |jobs|
    ensures Bracketed(Work(jobs, raises, shutdown, k).trace)
    decreases |jobs| - k
  {
    if Ends(jobs, shutdown, k) {
      WorkEnds(jobs, raises, shutdown, k);
    } else {
      var rest := Work(jobs, raises, shutdown, k + 1);
      var t := jobs[k].text;
      var raised := Raises(raises, k);
      WorkSpeaks(jobs, raises, shutdown, k);
      if shutdown.SeenAt(2 * k + 1) {
        OpenRoundIsLast(jobs, raises, shutdown, k);
        assert Round(t, raised, false) + [Cleanup] == [TtsStart, SpeakCall(t, raised), TaskDone, Cleanup];
      } else {
        WorkBracketed(jobs, raises, shutdown, k + 1);
        var tr := Round(t, raised, true) + rest.trace;
        assert Round(t, raised, true) == [TtsStart, SpeakCall(t, raised), TtsStop, TaskDone];
        assert tr[4..] == rest.trace;
      }
    }
  }

  /** A failing `speak` changes nothing but its own outcome: which jobs are popped, how the
      worker ends and every other event are the same whatever the calls raise. */
  lemma {:induction false} WorkAbsorbsFailures(jobs: seq<Job>, raises1: seq<bool>, raises2: seq<bool>,
                                                shutdown: Flag, k: nat)
    requires k <= |jobs|
    ensures var r1 := Work(jobs, raises1, shutdown, k); var r2 := Work(jobs, raises2, shutdown, k);
      r1.popped == r2.popped && r1.end == r2.end && Erase(r1.trace) == Erase(r2.trace)
    decreases |jobs| - k
  {
    if Ends(jobs, shutdown, k) {
      WorkEnds(jobs, raises1, shutdown, k);
      WorkEnds(jobs, raises2, shutdown, k);
    } else {
      WorkSpeaks(jobs, raises1, shutdown, k);
      WorkSpeaks(jobs, raises2, shutdown, k);
      WorkAbsorbsFailures(jobs, raises1, raises2, shutdown, k + 1);
      StepErase(jobs[k].text, Raises(raises1, k), Raises(raises2, k), !shutdown.SeenAt(2 * k + 1),
                Work(jobs, raises1, shutdown, k + 1).trace, Work(jobs, raises2, shutdown, k + 1).trace);
    }
  }

  lemma {:induction false} TextsAppend(a: seq<Job>, b: seq<Job>)
    ensures Texts(a + b) == Texts(a) + Texts(b)
    decreases |a|
  {
    if a == [] {
      assert a + b == b;
    } else {
      var h := if a[0].Speak? then [a[0].text] else [];
      assert (a + b)[0] == a[0];
      assert (a + b)[1..] == a[1..] + b;
      assert Texts(a + b) == h + Texts(a[1..] + b);
      TextsAppend(a[1..], b);
      assert h + (Texts(a[1..]) + Texts(b)) == (h + Texts(a[1..])) + Texts(b);
    }
  }

  /** The texts of a prefix of the jobs are a prefix of their texts. */
  lemma TextsPrefix(jobs: seq<Job>, m: nat)
    requires m <= |jobs|
    ensures Texts(jobs[..m]) <= Texts(jobs)
  {
    assert jobs == jobs[..m] + jobs[m..];
    TextsAppend(jobs[..m], jobs[m..]);
  }

  /** The round-head read ends the loop as soon as it sees the flag, and only then or on the
      sentinel: no job is popped at or after a round whose head read sees it; a loop that
      ended either popped the sentinel last or had the head read of its next round see the
      flag; and if the flag is visible by the head read that follows the last job, the worker
      reaches `cleanup` instead of waiting in `get`. */
  lemma {:induction false} WorkSeesShutdown(jobs: seq<Job>, raises: seq<bool>, shutdown: Flag, k: nat)
    requires k <= |jobs|
    ensures shutdown.SetBefore? && 2 * k <= shutdown.n + 1 ==>
      2 * Work(jobs, raises, shutdown, k).popped <= shutdown.n + 1
    ensures shutdown.SetBefore? && shutdown.n <= 2 * |jobs| ==>
      Work(jobs, raises, shutdown, k).end == Cleaned
    ensures var r := Work(jobs, raises, shutdown, k);
      r.end == Cleaned ==> (r.popped > k && jobs[r.popped - 1] == Poison) || shutdown.SeenAt(2 * r.popped)
    decreases |jobs| - k
  {
    if Ends(jobs, shutdown, k) {
      WorkEnds(jobs, raises, shutdown, k);
    } else {
      WorkSpeaks(jobs, raises, shutdown, k);
      WorkSeesShutdown(jobs, raises, shutdown, k + 1);
    }
  }
}

=== FILE: work_queue.dfy ===
/**
 The TTS work queue (`tts_queue`, a `queue.Queue`): an unbounded FIFO of jobs.
 A job is a line of text to speak or the `None` sentinel that tells the worker to stop.

 The queue itself is the sequence of jobs in `put` order: the handler's effects record each
 `put` (`Activation.Queued`), and the worker's k-th `get` returns element k of that sequence
 (`TtsWorker.Work`), blocking when there is none.
 */
module WorkQueue {
  datatype Job = Speak(text: string) | Poison
}

=== FILE: wrappers.dfy ===
/** Optional values, used for the attributes a chat item may lack. */
module Wrappers {

  datatype Option<+T> = None | Some(value: T) {

    /** The wrapped value, or `default` when there is none (Python's `getattr(x, name, default)`). */
    function GetOr(default: T): (r: T)
      ensures Some? ==> r == value
      ensures None? ==> r == default
    {
      match this
      case Some(v) => v
      case None => default
    }
  }
}
